=== FILE: README.md ===
# csconverter in Dafny

csconverter is a header-only C++ library. It writes the registered fields of a
record as one line of text and reads such a line back. Each field other than a
map is written in a tagged form, `<tag>$<payload>`, and the fields are
separated by `|`. The tags are short type tags: `s` for strings, `i` for integral numbers, `v` for
vectors. A vector payload separates its elements with `^`. A `std::map` field
writes its entries with `#` and a second delimiter.

This project models the four headers of that core as pure Dafny functions over
immutable datatypes, and proves what they do. It covers:

- the text helpers and the tag grammar (`CSHelper.h`);
- the value converters (`CSValueConverter.h`);
- the field wrappers (`CSConvetableValue.h`);
- the record registry (`CSConvertableStruct.h`).

Modules, one per file:

- `Text` (text.dfy): `std::string::find`, `splitString`, `splitTwoValues`,
  the hand-written join loops, and the `std::string` order that `std::map` uses.
- `Grammar` (grammar.dfy): the tags, the delimiters, `typifyValue`,
  `formatType`, `formatContainerTypes` and `tryGetFullType`.
- `Errors` (errors.dfy): the two thrown errors as the `Err` case of a
  `Result`, with their message texts.
- `Decimal` (decimal.dfy): `std::to_string` and `stringstream >>` for the
  non-character integral types.
- `Converters` (converters.dfy): the C++ type shapes as the `Shape`
  datatype, and `type()`/`typeOf`/`cast`/`toString`/`castTyped`/`toTyped`.
- `Fields` (fields.dfy): `ConvertableValue<T>` and its `std::map`
  specialisation. A map is its list of entries in ascending key order.
- `Registry` (registry.dfy): `ConvertableStruct`. A record is a list of
  entries `(name, kind, value)` in ascending name order. This is the order of
  the `std::map` the C++ code iterates.

The model follows the code as written, except at one line that would not
compile and is read as evidently intended (see "## Left out"):

- The bool and enum converters both report the floating tag `f`. So the enum
  converter's `castTyped` accepts a bool's tagged text, and the bool
  converter's `castTyped` accepts an enum's. Fields never check tags: they read
  with the raw `cast`.
- The type-mismatch message fills both of its slots from the tag that was
  used.
- A field's `setValue` reads its text with the raw `cast`, not `castTyped`.
  A string field re-reads its own text with the tag still on, as `"s$" + s`.
  An integral or enum field re-reads its own text as 0, and a bool field as
  false.
- The vector `castTyped` returns an empty vector, without an error, when its
  input does not split into exactly three `$` parts. The empty vector writes
  an empty payload, and reading that payload gives a one-element vector.
- The map wrapper writes `key#value` entries separated by the second
  delimiter. It reads them back the other way round: it splits on `#` first
  and then on the second delimiter. So a map does not read back its own text
  whenever its first key's text contains neither `#` nor the second
  delimiter. It does read the layout `key<kvd>value` joined by `#`.
  The second delimiter, `csMapKeyValueDelimiter`, is never declared in
  csconverter. Here it is the parameter `kvd`: one character other than `#`.
- Records are written in name order, not in registration order. A record with
  `type = "work"` and `value = 10` writes `s$work|i$10`.
- Reading `i$20|s$cat` into that record gives the first segment to `type`
  and the second to `value`. The result is `type = "i$20"` and `value = 0`.
- A map's text has no tag header. `std::map::emplace` keeps the value of a
  key that is already present, so duplicate keys in the input do not
  overwrite.

So this code does not give the field order `i$10|s$work`, a round trip of
every record, a map form with a tag header, or duplicates that overwrite,
although a reader of the library's interface might expect them. The model
follows the code on each point.

Two situations are undefined behaviour in the C++ code: a map piece with no second
part, and a line with fewer segments than fields. The model reports both as
errors, `MissingMapValue` and `MissingSegment`.

## Model

| member | source | states |
|---|---|---|
| `Text.FindFrom` | csconverter/CSHelper.h:153-158 | A position found by `find` lies at or after the start, with the whole delimiter inside the text. |
| `Text.FindFromFirst` | csconverter/CSHelper.h:153-158 | `find` returns the first occurrence at or after the start, and finds nothing only when no occurrence exists. |
| `Text.Split` | csconverter/CSHelper.h:149-164 | `splitString` always returns at least one part. |
| `Text.SplitString` | csconverter/CSHelper.h:149-164 | The `find`/`substr` loop of `splitString` computes `Split`. |
| `Text.SplitFromFound` | csconverter/CSHelper.h:155-159 | One round of the loop: a delimiter found at `e` cuts off the part before it, and splitting goes on after the delimiter. |
| `Text.SplitUnfold` | csconverter/CSHelper.h:153-159 | The first delimiter in the text ends the first part, and the rest is split after it. |
| `Text.SplitFromLast` | csconverter/CSHelper.h:161 | When no delimiter follows, the rest of the text is the last part. |
| `Text.FindFromSuffix` | csconverter/CSHelper.h:158 | Searching from an offset finds the same position as searching the suffix, shifted by the offset. |
| `Text.SplitSingleIff` | csconverter/CSHelper.h:149-164 | The split is `[s]`, or has one part, exactly when the delimiter does not occur in `s`. |
| `Text.JoinSplit` | csconverter/CSHelper.h:149-164 | Joining the parts of a split with the delimiter gives back the text exactly. |
| `Text.SplitPartsAvoidDelimiter` | csconverter/CSHelper.h:155-161 | No part of a split contains the delimiter. |
| `Text.OccursInPrefix` | csconverter/CSHelper.h:153-158 | An occurrence inside a prefix is an occurrence in the whole text. |
| `Text.SplitKeepsTrailingEmpty` | csconverter/CSHelper.h:161 | A trailing delimiter keeps an empty last part: the text `a` followed by the field separator splits into `"a"` and `""`. |
| `Text.SplitTwoValues` | csconverter/CSHelper.h:166-175 | A two-part split gives the two parts: the first ends where `find` first meets the delimiter, they rebuild the text around it, and neither contains it. Any other part count gives `("", "")`. |
| `Text.SplitTwoValuesOverlap` | csconverter/CSHelper.h:149-175 | With the overlapping delimiter `aa`, `aaa` gives `("", "a")`: the first `find` fixes the split. |
| `Text.ContainsChar` | csconverter/CSHelper.h:153 | A one-character delimiter occurs exactly when its character is in the text. |
| `Text.SplitHead` | csconverter/CSHelper.h:155-159 | `a + d + b`, with no delimiter character in `a`, splits into `a` followed by the split of `b`. |
| `Text.SplitAvoiding` | csconverter/CSHelper.h:161 | A text without the delimiter character splits into itself alone. |
| `Text.SplitBetweenDelimiters` | csconverter/CSHelper.h:155-161 | `a + d + b + d`, with no delimiter in `a` or `b`, splits into `a`, `b` and an empty last part. |
| `Text.SplitFirstOfJoin` | csconverter/CSHelper.h:155-159 | When the first joined part is `key`, then `e`, then more text, the first `e`-part of the joined text is `key`. |
| `Text.SplitJoin` | csconverter/CSHelper.h:149-164 | Splitting a join undoes it when no part holds the one-character delimiter. |
| `Text.Join` | csconverter/CSHelper.h:113-120 | No parts join to `""`. |
| `Text.JoinEnds` | csconverter/CSHelper.h:113-120 | A join of at least one part starts with the first part and ends with the last. |
| `Text.JoinCons` | csconverter/CSHelper.h:113-120 | The join of a head and a non-empty rest is the head, the delimiter, then the joined rest. |
| `Text.JoinSnoc` | csconverter/CSHelper.h:113-120 | Adding a last part appends the delimiter and the part. This is the join loop's step. |
| `Text.JoinPrefixStep` | csconverter/CSHelper.h:113-120 | The join of the first `i + 1` parts extends the join of the first `i` by the delimiter and part `i`. |
| `Text.JoinAvoids` | csconverter/CSHelper.h:113-120 | A character in neither the parts nor the delimiter is not in the join. |
| `Text.StrLessIrreflexive` | csconverter/CSConvertableStruct.h:39 | No name precedes itself in the `std::string` order of the registry's map. |
| `Text.StrLessTransitive` | csconverter/CSConvertableStruct.h:39 | The `std::string` order is transitive. |
| `Text.StrLessTotal` | csconverter/CSConvertableStruct.h:39 | Of two different names, one precedes the other. |
| `Text.StrLessAsymmetric` | csconverter/CSConvertableStruct.h:39 | Two names never precede each other. |
| `Grammar.TryGetFullType` | csconverter/CSHelper.h:55-87 | `s` is "String", `i` "Integral", `f` "Float", `m` "Map", `b` "Bool" and `v` "Vector". Every other tag, the pair tag `p` included, gives "Undefined". |
| `Grammar.FullTypeIdentifiesTag` | csconverter/CSHelper.h:55-87 | Two of the six named tags get the same name exactly when they are the same tag. |
| `Grammar.TypifyValue` | csconverter/CSHelper.h:89-107 | Both overloads produce the tag, then `$`, then the payload. Each piece is found at its place in the text. |
| `Grammar.TypifyValueSplits` | csconverter/CSHelper.h:89-107 | A typified text without other `$` splits back into its tag and payload, and `splitTwoValues` returns them. |
| `Grammar.FormatType` | csconverter/CSHelper.h:109-123 | No tags give `""`, and one tag gives that tag with no delimiter. |
| `Grammar.FormatTypeSplits` | csconverter/CSHelper.h:109-123 | Splitting a formatted tag list on `$` gives back the tags. |
| `Grammar.FormatContainerTypes` | csconverter/CSHelper.h:125-144 | The header ends in `$`. With no inner tags it is `tag + "$$"`. |
| `Grammar.FormatContainerTypesSplits` | csconverter/CSHelper.h:125-144 | The header splits on `$` into the outer tag, the inner tags joined by `^`, and an empty last part. |
| `Errors.TypeMismatchMessage` | csconverter/CSHelper.h:180-187 | The message is the fixed prefix, the used tag's name, `" to "`, and the used tag's name again: both slots hold the name of the tag used. An unnamed tag gives "Undefined to Undefined". |
| `Errors.MismatchMessageIgnoresRequired` | csconverter/CSHelper.h:180-187 | The mismatch message is the same whatever the required tag. |
| `Errors.MismatchMessageExample` | csconverter/CSHelper.h:180-187 | A used tag `i` with a required tag `s` gives "from Integral to Integral". |
| `Errors.TypeRedefinitionMessage` | csconverter/CSHelper.h:189-194 | The message holds the key verbatim, between the fixed prefix and suffix. |
| `Errors.RedefinitionMessageInjective` | csconverter/CSHelper.h:189-194 | Different keys give different redefinition messages. |
| `Decimal.NatToString` | csconverter/CSValueConverter.h:80 | `std::to_string` of a natural number: at least one digit, all digits, and no leading zero. |
| `Decimal.IntToString` | csconverter/CSValueConverter.h:80 | `std::to_string` of an integer is non-empty and made of digits and a minus sign. |
| `Decimal.DigitChar` | csconverter/CSValueConverter.h:80 | The character of a digit value is a digit with that value. |
| `Decimal.SkipSpaces` | csconverter/CSValueConverter.h:55-61 | The stream skips a prefix of white space and stops at a non-space character. |
| `Decimal.DigitPrefix` | csconverter/CSValueConverter.h:55-61 | The stream reads the longest run of digits at the start of the text. |
| `Decimal.DigitPrefixOfDigits` | csconverter/CSValueConverter.h:55-61 | A text of digits alone is read whole. |
| `Decimal.NatToStringValue` | csconverter/CSValueConverter.h:80 | The digits written for `n` have the value `n`. |
| `Decimal.LeadingDigitPositive` | csconverter/CSValueConverter.h:55-61 | Digits with a non-zero first digit have a positive value. |
| `Decimal.DigitsValueToString` | csconverter/CSValueConverter.h:55-80 | Digits without a leading zero are the rendering of their own value. |
| `Decimal.ParseNatToString` | csconverter/CSValueConverter.h:55-80 | Reading back the digits written for a natural number gives the number. |
| `Decimal.ParseIntToString` | csconverter/CSValueConverter.h:55-80 | The integral `cast` undoes `toString` for every integer. |
| `Decimal.IntToStringParse` | csconverter/CSValueConverter.h:55-80 | On canonical decimal text, `toString` undoes the integral `cast`. |
| `Decimal.ParseIntSign` | csconverter/CSValueConverter.h:55-61 | The value read is negative only after white space, a `-` and a digit, and positive only after white space and a digit or `+`. |
| `Decimal.ParseIntDigits` | csconverter/CSValueConverter.h:55-61 | A run of digits reads as its value. |
| `Decimal.ParseIntSignedDigits` | csconverter/CSValueConverter.h:55-61 | A sign followed by a run of digits reads as the digits' value with that sign. |
| `Decimal.ParseIntSignOnly` | csconverter/CSValueConverter.h:55-61 | A sign, `+` or `-`, with nothing after it reads as 0. |
| `Decimal.ParseIntNonNumeric` | csconverter/CSValueConverter.h:55-61 | Empty text, or text that starts with no space, sign or digit, reads as 0. |
| `Converters.Tag` | csconverter/CSValueConverter.h:17-192 | The string converter's tag is `s`, the integral's `i`, the bool's and the enum's `f`, and every vector's `v`: one character each, and none of the delimiters. |
| `Converters.TypeOf` | csconverter/CSValueConverter.h:9 | A converter accepts exactly its own tag: strings `s`, integrals `i`, bool and enum `f`, vectors `v`. An accepted tag is one character. |
| `Converters.TagsCollide` | csconverter/CSValueConverter.h:122-158 | Two converters share a tag exactly when they are equal, both are bool/enum, or both are vectors. |
| `Converters.Cast` | csconverter/CSValueConverter.h:22-209 | The raw `cast` gives a value of the converter's shape. A vector gets one element per `^` part. A bool is true exactly for `"+"`. |
| `Converters.ToString` | csconverter/CSValueConverter.h:44-261 | A bool writes `"+"` or `"-"`. The empty vector writes `""`. |
| `Converters.RenderEach` | csconverter/CSValueConverter.h:250-257 | A vector's element texts, one per element. |
| `Converters.CastTyped` | csconverter/CSValueConverter.h:27-239 | A scalar accepts exactly a two-part text headed by its tag. A vector returns the empty vector for any part count other than three. Every failure is a mismatch that reports the converter's own tag as required. |
| `Converters.ToTyped` | csconverter/CSValueConverter.h:45-268 | A scalar writes `tag$payload`. A vector writes `v$<element tag>$payload`. |
| `Converters.NumberTextClean` | csconverter/CSValueConverter.h:80-184 | Integral, bool and enum texts hold none of `$`, `^`, `#` and the field separator. |
| `Converters.ScalarRoundTrip` | csconverter/CSValueConverter.h:22-184 | For every scalar converter, `cast(toString(v)) == v`. |
| `Converters.ScalarTypedSplits` | csconverter/CSValueConverter.h:31-45 | A tagged scalar without `$` in its payload splits into its tag and payload. |
| `Converters.StringTypedRoundTrip` | csconverter/CSValueConverter.h:27-45 | `castTyped(toTyped(s)) == s` exactly when `s` has no `$`. |
| `Converters.TaggedCastTyped` | csconverter/CSValueConverter.h:27-42 | A text made of a scalar's own tag, `$` and a payload without `$` reads as `cast` of the payload. |
| `Converters.NumberTypedRoundTrip` | csconverter/CSValueConverter.h:63-185 | The tagged round trip holds for every integral, bool and enum value. |
| `Converters.EnumReadsBool` | csconverter/CSValueConverter.h:125-185 | An enum converter accepts a bool's tagged text and reads it as 0. |
| `Converters.BoolReadsEnum` | csconverter/CSValueConverter.h:125-185 | A bool converter accepts an enum's tagged text and reads it as false. |
| `Converters.ScalarCastTypedRejects` | csconverter/CSValueConverter.h:31-39 | A text that is not two parts headed by the tag raises a mismatch. The mismatch names the split's first part and the converter's tag. |
| `Converters.VectorTypedSplits` | csconverter/CSValueConverter.h:215-220 | A tagged vector splits on `$` into `v`, the element tag and the payload. |
| `Converters.VectorTypedRoundTrip` | csconverter/CSValueConverter.h:194-268 | A non-empty vector of scalars with clean element texts reads back as itself. |
| `Converters.VectorRoundTrip` | csconverter/CSValueConverter.h:194-257 | A non-empty vector of scalars whose element texts hold no `^` reads back as itself through the raw `cast` of its `toString`. |
| `Converters.EmptyVectorReadsOneElement` | csconverter/CSValueConverter.h:194-268 | The empty vector reads back as one element, the cast of `""`. |
| `Converters.VectorTagMismatch` | csconverter/CSValueConverter.h:215-236 | With three parts, a wrong outer tag is reported first, then a wrong inner tag. Otherwise the third part is cast. |
| `Fields.KeyLessIrreflexive` | csconverter/CSConvetableValue.h:51 | No key precedes itself in `std::less`. |
| `Fields.KeyLessTransitive` | csconverter/CSConvetableValue.h:51 | `std::less` on keys is transitive. |
| `Fields.KeyLessTotal` | csconverter/CSConvetableValue.h:51 | Two different scalar keys of one shape are ordered one way or the other. |
| `Fields.Emplace` | csconverter/CSConvetableValue.h:51 | `emplace` keeps the map sorted. A present key leaves the map unchanged. An absent key adds exactly the new entry. |
| `Fields.BelowFirstKeyAbsent` | csconverter/CSConvetableValue.h:51 | A key below the first key of a sorted map is not in it. |
| `Fields.KeysCons` | csconverter/CSConvetableValue.h:51 | The keys of a map are its first key and the keys of the rest. |
| `Fields.EmplaceKeeps` | csconverter/CSConvetableValue.h:51 | `emplace` keeps every entry there was, and the shapes of all entries. |
| `Fields.EmplaceGreatest` | csconverter/CSConvetableValue.h:51 | A key above every key present is emplaced at the end. |
| `Fields.EntryTexts` | csconverter/CSConvetableValue.h:65-67 | One entry text per entry. |
| `Fields.MapAsString` | csconverter/CSConvetableValue.h:55-75 | The empty map writes `""`. One entry writes `key#value` with no header. |
| `Fields.MapAsStringEntries` | csconverter/CSConvetableValue.h:55-75 | Splitting the map text on `kvd` gives the entries' `key#value` texts in key order. |
| `Fields.MapTextHead` | csconverter/CSConvetableValue.h:44-67 | The first `#` piece of a non-empty map's text is its first key. |
| `Fields.EmplacePieces` | csconverter/CSConvetableValue.h:45-52 | The pieces loop keeps the map sorted and shaped, and keeps every entry there was. |
| `Fields.EmplacePiecesOk` | csconverter/CSConvetableValue.h:45-52 | The loop succeeds exactly when every piece splits on `kvd` into at least two parts. |
| `Fields.MapSetValue` | csconverter/CSConvetableValue.h:37-53 | Map `setValue` keeps the map sorted and shaped, and never removes or overwrites an entry. |
| `Fields.EmplaceKeys` | csconverter/CSConvetableValue.h:51 | `emplace` adds exactly the emplaced key to the map's keys. |
| `Fields.PieceKeysCons` | csconverter/CSConvetableValue.h:45-48 | The pieces' keys are the first piece's key and the keys of the rest. |
| `Fields.EmplacePiecesSplit` | csconverter/CSConvetableValue.h:45-49 | A successful read split every piece into at least two `kvd` parts. |
| `Fields.EmplacePiecesKeys` | csconverter/CSConvetableValue.h:45-52 | After the pieces loop the keys are the old keys and the casts of every piece's first part. |
| `Fields.EmplacePiecesAdds` | csconverter/CSConvetableValue.h:45-52 | One round of the loop: a piece whose key is new and first of its kind ends up with its entry in the result. |
| `Fields.EmplacePiecesAddsAll` | csconverter/CSConvetableValue.h:45-52 | Every piece whose key is not in the map and not read by an earlier piece adds the casts of its parts 0 and 1 as an entry. |
| `Fields.EmplacePiecesOrigin` | csconverter/CSConvetableValue.h:45-52 | Every entry after the loop is an old entry, or the casts of parts 0 and 1 of some piece. |
| `Fields.EmplacePiecesContents` | csconverter/CSConvetableValue.h:45-52 | The keys, the added entries and the origin of every entry after the pieces loop, together. |
| `Fields.MapSetValueContents` | csconverter/CSConvetableValue.h:37-53 | Map `setValue` turns every `#` piece into the casts of its first and second `kvd` parts. The keys become the old keys plus the pieces' keys. A new key takes its first piece's value, and nothing else enters the map. |
| `Fields.MapTextNotReadable` | csconverter/CSConvetableValue.h:37-75 | Reading a map's own text fails whenever the first key's text contains neither `#` nor `kvd`: the empty map writes `""`, and otherwise the first `#` piece is that key alone. |
| `Fields.SwappedLayoutReads` | csconverter/CSConvetableValue.h:37-53 | The layout `key<kvd>value` joined by `#` reads into an empty map as exactly its entries. |
| `Fields.EmplaceSwapped` | csconverter/CSConvetableValue.h:45-52 | After the first `n` pieces of that layout, the map holds exactly the first `n` entries. |
| `Fields.EmplaceSwappedAt` | csconverter/CSConvetableValue.h:45-52 | Piece `n` of that layout appends entry `n`. |
| `Fields.PrefixBelow` | csconverter/CSConvetableValue.h:51 | The entries before position `n` of a sorted map are sorted and below entry `n`. |
| `Fields.EmplaceSwappedStep` | csconverter/CSConvetableValue.h:45-52 | A piece whose key is above every key present appends its entry. |
| `Fields.AsString` | csconverter/CSConvetableValue.h:25-29 | A plain field writes its value's tagged form. |
| `Fields.SetValue` | csconverter/CSConvetableValue.h:19-23 | A plain field stores the raw `cast` of the whole text, with no tag check. A map field keeps every entry it had. A success fits the field's type. |
| `Fields.StringFieldKeepsTag` | csconverter/CSConvetableValue.h:19-29 | A string field re-reads its own text as `"s$" + s`. |
| `Fields.NumberFieldReadsDefault` | csconverter/CSConvetableValue.h:19-29 | An integral, bool or enum field re-reads its own text as the value of `""`: 0 or false. |
| `Registry.NamesCons` | csconverter/CSConvertableStruct.h:39 | The names of a record are its first name and the names of the rest. |
| `Registry.Insert` | csconverter/CSConvertableStruct.h:78 | Inserting a new name keeps the names sorted and adds exactly the new entry. |
| `Registry.PushValue` | csconverter/CSConvertableStruct.h:72-84 | `pushValue` fails exactly for a registered name, with a redefinition error for that name. Otherwise it adds exactly one entry and keeps the names sorted and unique. |
| `Registry.SameEntriesSameRecord` | csconverter/CSConvertableStruct.h:39 | Two sorted records of equal size with the same entries are equal. |
| `Registry.PushOrderIrrelevant` | csconverter/CSConvertableStruct.h:72-84 | Registering two fields in either order gives the same record. |
| `Registry.FieldTexts` | csconverter/CSConvertableStruct.h:61-63 | One field text per field. |
| `Registry.Encode` | csconverter/CSConvertableStruct.h:56-70 | An empty record writes `""`. One field writes its own text, with no separator. |
| `Registry.ConvertObjectToLineSave` | csconverter/CSConvertableStruct.h:56-70 | The loop, which appends the field separator while fields remain, computes `Encode`. |
| `Registry.EncodeSplits` | csconverter/CSConvertableStruct.h:56-70 | When no field text holds the field separator, the line splits into one segment per field, in name order. |
| `Registry.ApplySegments` | csconverter/CSConvertableStruct.h:49-53 | Fewer segments than fields is an error. A success has one entry per field. |
| `Registry.ApplySegmentsFieldwise` | csconverter/CSConvertableStruct.h:49-53 | On success, field `i` keeps its name and kind and holds what its `setValue` made of segment `i`. |
| `Registry.ApplySegmentsWellFormed` | csconverter/CSConvertableStruct.h:44-54 | Decoding keeps the record well formed and its names unchanged. |
| `Registry.ApplySegmentsIgnoresExtra` | csconverter/CSConvertableStruct.h:49-53 | Segments beyond the field count are ignored. |
| `Registry.Decode` | csconverter/CSConvertableStruct.h:44-54 | A line with fewer segments than fields fails. A success has one entry per field. |
| `Registry.DecodeFieldwise` | csconverter/CSConvertableStruct.h:44-54 | On success, field `i` in name order keeps its name and gets `setValue` of the `i`-th segment. |
| `Registry.MissingSegmentWhenShort` | csconverter/CSConvertableStruct.h:49-53 | With too few segments decoding fails. For plain fields, the failure names the first field without a segment. |
| `Registry.Reverse` | csconverter/CSConvertableStruct.h:47 | `std::reverse` keeps the length and mirrors the positions. |
| `Registry.PrefixedEmpty` | csconverter/CSConvertableStruct.h:49-53 | No finished fields leave the rest of the decoding as it is. |
| `Registry.ConvertLineSaveToObject` | csconverter/CSConvertableStruct.h:44-54 | The reverse/`back`/`pop_back` loop computes `Decode`. |
| `Registry.ReverseUnfold` | csconverter/CSConvertableStruct.h:47-52 | The reversed remaining segments end in the next segment, which `back` returns. |
| `Registry.ApplyMissing` | csconverter/CSConvertableStruct.h:51 | `back` on no remaining segment is the `MissingSegment` error of the current field. |
| `Registry.ApplyStep` | csconverter/CSConvertableStruct.h:49-53 | One round of the loop sets the current field from the current segment, or stops at its error. |
| `Registry.PrefixedAppend` | csconverter/CSConvertableStruct.h:49-53 | Finishing one more field appends it to the finished fields. |
| `Registry.ExampleRegistration` | csconverter/CSConvertableStruct.h:72-84 | Registering `value` and then `type` places `type` first. |
| `Registry.ExampleRecordEncode` | csconverter/CSConvertableStruct.h:56-70 | The record `type`/`value` writes `s$<type>`, the field separator, then `i$<value>`. |
| `Registry.ExampleEncode` | csconverter/CSConvertableStruct.h:56-70 | `type = "work"`, `value = 10` writes `s$work`, the field separator, then `i$10`. |
| `Registry.ExampleRecordDecode` | csconverter/CSConvertableStruct.h:44-54 | A line of `a`, the field separator and `b` gives `type` the text `a` and `value` the integral cast of `b`. |
| `Registry.ExampleRecordApply` | csconverter/CSConvertableStruct.h:49-53 | The segments `a`, `b` set `type` to `a` and `value` to the integral cast of `b`. |
| `Registry.ApplyPlainLast` | csconverter/CSConvertableStruct.h:49-53 | A last plain field stores the raw cast of the last segment. |
| `Registry.ApplyPlainHead` | csconverter/CSConvertableStruct.h:49-53 | A plain first field stores the raw cast of the first segment and leaves the rest to the other fields. |
| `Registry.ExampleDecode` | csconverter/CSConvertableStruct.h:44-54 | Reading the line of `i$20` and `s$cat` gives `type = "i$20"` and `value = 0`. |
| `Registry.PlainRecordRereads` | csconverter/CSConvertableStruct.h:44-70 | A record of plain fields re-reads its own line without error. Every field then holds the raw cast of its own tagged text. |
| `Registry.PlainApplies` | csconverter/CSConvertableStruct.h:49-53 | Plain fields never fail when there are enough segments. |

## Left out

- The floating converter (`CSValueConverter.h:86-118`). It depends on floating-point formatting and stream parsing. Its `toStringTyped` passes a float where a string is expected.
- The pair shape. Only the tag `p` and the trait `isPair` exist, and no converter.
- The type-trait machinery (`CSHelper.h:33-53`). The `Shape` datatype replaces it.
- Raw pointers, ownership, the leaked `new`, and the unused null-pointer error helpers (`CSHelper.h:196-208`). Every entry of a record carries its field's value instead.
- A partial update before an error. The C++ code has already written the fields before the failing one. The model returns only the error.
- `std::unordered_map`. Its iteration order is unspecified, so only the `std::map` case is modelled.
- Map keys of vector shape. Only scalar keys have the total order that `std::map` needs.
- main.cpp, the demo client.
- `csMapKeyValueDelimiter` is never declared in csconverter. It is the parameter `kvd`, taken to be one character other than `#`.
- Decimal.ParseInt: `Int` stands for the non-character integral types. For `char`, `signed char` and `unsigned char`, which also match the integral converter, `>>` reads one character and `std::to_string` writes its number. That case is not modelled.
- `bool` is itself integral, so `ValueConverter<bool>` matches both the integral specialisation (`CSValueConverter.h:51`) and the bool one (`CSValueConverter.h:123`), which may be ambiguous for a C++ compiler. The model takes the bool specialisation.
- The `IConvertableValue` defaults (`CSConvetableValue.h:8-9`), a `setValue` that does nothing and an `asString` that writes `""`, are not modelled. `pushValue` always stores a `ConvertableValue<T>`, which overrides both, so the defaults are never reached.
- Decimal.ParseInt: integers are unbounded. The fixed widths of the C++ types, and the stream's failure on overflow, are not modelled.
- Converters.Cast: the bool `cast` (`CSValueConverter.h:129`) is written `return aValue = aValue == "+" ? true : false;`, which assigns to a `const std::string&` and would not compile. The model reads it as the evident `aValue == "+"`: true exactly for `"+"`.
- Converters.Cast: no narrowing to the underlying type of an enum or to the width of an integral type.
- Locales: white space is that of the "C" locale. Other locales are not modelled.

=== FILE: converters.dfy ===
/**
 The value converters: one `ValueConverter` specialisation per C++ type shape,
 here one case of `Shape` each. Every converter has a tag (`type()`), a raw
 pair `Cast`/`ToString` that reads and writes the payload alone, and a tagged
 pair `CastTyped`/`ToTyped` that writes `<tag>$<payload>` and checks the tag on
 the way back in.
 */
module Converters {
  import opened Text
  import opened Grammar
  import opened Errors
  import opened Decimal

  /** The value shapes that have a converter: `std::string`, integral, `bool`, enum, `std::vector`. */
  datatype Shape = Str | Int | Bool | Enum | Vec(elem: Shape)

  /** A value of some shape; an enum value is its underlying integer. */
  datatype Value =
    | SV(str: string)
    | IV(num: int)
    | BV(flag: bool)
    | EV(enum: int)
    | VV(elems: seq<Value>)

  predicate IsScalar(sh: Shape)
  {
    !sh.Vec?
  }

  /** `v` is a value of the C++ type that `sh` stands for. */
  predicate HasShape(v: Value, sh: Shape)
    decreases sh
  {
    match sh
    case Str => v.SV?
    case Int => v.IV?
    case Bool => v.BV?
    case Enum => v.EV?
    case Vec(e) => v.VV? && forall i :: 0 <= i < |v.elems| ==> HasShape(v.elems[i], e)
  }

  /**
   `type()`: the converter's tag. As written, the bool and enum converters both
   return the floating tag `"f"`, and a vector's tag does not depend on its element.
   */
  function Tag(sh: Shape): (tag: string)
    ensures tag in {StringTag, IntegralTag, FloatingTag, VectorTag}
    ensures |tag| == 1 && '$' !in tag && '^' !in tag && '|' !in tag && '#' !in tag
    ensures sh == Str ==> tag == StringTag
    ensures sh == Int ==> tag == IntegralTag
    ensures sh in {Bool, Enum} ==> tag == FloatingTag
    ensures sh.Vec? ==> tag == VectorTag
  {
    match sh
    case Str => StringTag
    case Int => IntegralTag
    case Bool => FloatingTag
    case Enum => FloatingTag
    case Vec(_) => VectorTag
  }

  /** `IValueConverter::typeOf`: the text is this converter's tag. */
  function TypeOf(sh: Shape, text: string): (b: bool)
    ensures b ==> |text| == 1
    ensures sh == Str ==> (b <==> text == StringTag)
    ensures sh == Int ==> (b <==> text == IntegralTag)
    ensures sh in {Bool, Enum} ==> (b <==> text == FloatingTag)
    ensures sh.Vec? ==> (b <==> text == VectorTag)
  {
    text == Tag(sh)
  }

  /**
   Two converters accept the same tags exactly when they are the same scalar
   converter, the bool and enum pair, or any two vector converters.
   */
  lemma {:induction false} TagsCollide(a: Shape, b: Shape)
    ensures Tag(a) == Tag(b) <==>
      (a == b || (a in {Bool, Enum} && b in {Bool, Enum}) || (a.Vec? && b.Vec?))
  {
  }

  /**
   `cast`: reads a payload without looking for a tag. Strings are taken as
   they are, numbers as `stringstream` reads them, a bool is true only for
   `"+"`, and a vector splits on `"^"` and casts every part, so it always has
   at least one element.
   */
  function Cast(sh: Shape, payload: string): (v: Value)
    ensures HasShape(v, sh)
    ensures sh.Vec? ==> |v.elems| == |Split(payload, ContainerValuesDelimiter)|
    ensures sh == Bool ==> (v == BV(true) <==> payload == "+")
    decreases sh
  {
    match sh
    case Str => SV(payload)
    case Int => IV(ParseInt(payload))
    case Bool => BV(payload == "+")
    case Enum => EV(ParseInt(payload))
    case Vec(e) =>
      var parts := Split(payload, ContainerValuesDelimiter);
      VV(seq(|parts|, i requires 0 <= i < |parts| => Cast(e, parts[i])))
  }

  /** The raw renderings of the elements of a vector, in order. */
  function RenderEach(e: Shape, xs: seq<Value>): (texts: seq<string>)
    requires forall i :: 0 <= i < |xs| ==> HasShape(xs[i], e)
    ensures |texts| == |xs|
    decreases Vec(e), 0
  {
    seq(|xs|, i requires 0 <= i < |xs| => ToString(e, xs[i]))
  }

  /**
   `toString`: the payload without a tag. Numbers as `std::to_string` writes
   them, bools as `"+"` or `"-"`, vectors as their elements' raw texts joined
   by `"^"`, so the empty vector gives `""`.
   */
  function ToString(sh: Shape, v: Value): (text: string)
    requires HasShape(v, sh)
    ensures sh == Bool ==> text in {"+", "-"}
    ensures sh.Vec? && |v.elems| == 0 ==> text == ""
    decreases sh, 1
  {
    match sh
    case Str => v.str
    case Int => IntToString(v.num)
    case Bool => if v.flag then "+" else "-"
    case Enum => IntToString(v.enum)
    case Vec(e) => Join(RenderEach(e, v.elems), ContainerValuesDelimiter)
  }

  /**
   `castTyped`. A scalar converter splits off the tag with `splitTwoValues`
   and reports a mismatch unless it gets exactly two parts headed by its own
   tag. The vector converter wants exactly three `"$"` parts and otherwise
   returns the empty vector without complaint; with three parts it checks the
   outer and then the inner tag and casts the third part.
   */
  function CastTyped(sh: Shape, text: string): (r: Result<Value>)
    ensures r.Ok? ==> HasShape(r.value, sh)
    ensures IsScalar(sh) ==>
      (r.Ok? <==> |Split(text, TypeDelimiter)| == 2 && Split(text, TypeDelimiter)[0] == Tag(sh))
    ensures sh.Vec? && |Split(text, TypeDelimiter)| != 3 ==> r == Ok(VV([]))
    ensures r.Err? ==> r.error.TypeMismatch? && r.error.typeRequired == Tag(sh)
  {
    if sh.Vec? then
      var parts := Split(text, TypeDelimiter);
      if |parts| == 3 then
        if TypeOf(sh, parts[0]) then
          if !TypeOf(sh.elem, parts[1]) then Err(TypeMismatch(parts[1], Tag(sh)))
          else Ok(Cast(sh, parts[2]))
        else Err(TypeMismatch(parts[0], Tag(sh)))
      else Ok(VV([]))
    else
      var pair := SplitTwoValues(text, TypeDelimiter);
      if TypeOf(sh, pair.0) then Ok(Cast(sh, pair.1))
      else Err(TypeMismatch(pair.0, Tag(sh)))
  }

  /**
   `toTyped`: a scalar is `<tag>$<payload>`; a vector is headed by its own tag
   and its element's tag, `v$<elementTag>$<payload>`.
   */
  function ToTyped(sh: Shape, v: Value): (text: string)
    requires HasShape(v, sh)
    ensures IsScalar(sh) ==> text == Tag(sh) + "$" + ToString(sh, v)
    ensures sh.Vec? ==> text == "v$" + Tag(sh.elem) + "$" + ToString(sh, v)
  {
    if sh.Vec? then
      JoinCons(VectorTag, [Tag(sh.elem)], TypeDelimiter);
      assert [VectorTag] + [Tag(sh.elem)] == [Tag(sh), Tag(sh.elem)];
      assert VectorTag + TypeDelimiter == "v$";
      TypifyValue(FormatType([Tag(sh), Tag(sh.elem)]), ToString(sh, v))
    else
      TypifyValue(Tag(sh), ToString(sh, v))
  }

  /** The raw text of an integral, bool or enum value holds no delimiter of the codec. */
  lemma {:induction false} NumberTextClean(sh: Shape, v: Value)
    requires sh in {Int, Bool, Enum} && HasShape(v, sh)
    ensures '$' !in ToString(sh, v) && '^' !in ToString(sh, v)
    ensures '|' !in ToString(sh, v) && '#' !in ToString(sh, v)
  {
  }

  /** For every scalar shape the raw cast undoes the raw rendering. */
  lemma {:induction false} ScalarRoundTrip(sh: Shape, v: Value)
    requires IsScalar(sh) && HasShape(v, sh)
    ensures Cast(sh, ToString(sh, v)) == v
  {
    match sh
    case Int => ParseIntToString(v.num);
    case Enum => ParseIntToString(v.enum);
    case Str =>
    case Bool =>
  }

  /** A tagged scalar splits into its tag and its payload when the payload has no `"$"`. */
  lemma {:induction false} ScalarTypedSplits(sh: Shape, v: Value)
    requires IsScalar(sh) && HasShape(v, sh) && '$' !in ToString(sh, v)
    ensures Split(ToTyped(sh, v), TypeDelimiter) == [Tag(sh), ToString(sh, v)]
  {
    TypifyValueSplits(Tag(sh), ToString(sh, v));
  }

  /**
   The tagged string round trip holds exactly for strings without `"$"`; with
   one, the split yields more than two parts and the cast reports a mismatch.
   */
  lemma {:induction false} StringTypedRoundTrip(s: string)
    ensures CastTyped(Str, ToTyped(Str, SV(s))) == Ok(SV(s)) <==> '$' !in s
  {
    var text := ToTyped(Str, SV(s));
    SplitHead(StringTag, TypeDelimiter, s);
    assert text == StringTag + TypeDelimiter + s;
    ContainsChar(s, TypeDelimiter);
    SplitSingleIff(s, TypeDelimiter);
  }

  /** A scalar converter reads text headed by its own tag as the raw cast of the payload. */
  lemma {:induction false} TaggedCastTyped(sh: Shape, payload: string)
    requires IsScalar(sh) && '$' !in payload
    ensures CastTyped(sh, Tag(sh) + "$" + payload) == Ok(Cast(sh, payload))
  {
    TypifyValueSplits(Tag(sh), payload);
  }

  /** Integral, bool and enum values survive the tagged round trip, an enum whatever its integer. */
  lemma {:induction false} NumberTypedRoundTrip(sh: Shape, v: Value)
    requires sh in {Int, Bool, Enum} && HasShape(v, sh)
    ensures CastTyped(sh, ToTyped(sh, v)) == Ok(v)
  {
    NumberTextClean(sh, v);
    ScalarTypedSplits(sh, v);
    ScalarRoundTrip(sh, v);
  }

  /**
   Bool and enum share the tag `"f"`, so the enum converter accepts a bool's
   text, and reads `"+"` or `"-"` as the enum with value 0.
   */
  lemma {:induction false} EnumReadsBool(b: bool)
    ensures CastTyped(Enum, ToTyped(Bool, BV(b))) == Ok(EV(0))
  {
    var payload := ToString(Bool, BV(b));
    assert ToTyped(Bool, BV(b)) == Tag(Enum) + "$" + payload;
    TaggedCastTyped(Enum, payload);
    assert payload == [payload[0]];
    ParseIntSignOnly(payload[0]);
  }

  /** Likewise the bool converter accepts an enum's text, and reads every enum as false. */
  lemma {:induction false} BoolReadsEnum(n: int)
    ensures CastTyped(Bool, ToTyped(Enum, EV(n))) == Ok(BV(false))
  {
    var payload := ToString(Enum, EV(n));
    NumberTextClean(Enum, EV(n));
    ScalarTypedSplits(Enum, EV(n));
    assert SplitTwoValues(ToTyped(Enum, EV(n)), TypeDelimiter) == (FloatingTag, payload);
    assert payload != "+" by {
      assert IsDigit(payload[0]) || payload[0] == '-';
    }
  }

  /** A scalar text with the wrong tag, or without exactly one `"$"`, is a type mismatch. */
  lemma {:induction false} ScalarCastTypedRejects(sh: Shape, text: string)
    requires IsScalar(sh)
    requires |Split(text, TypeDelimiter)| != 2 || Split(text, TypeDelimiter)[0] != Tag(sh)
    ensures CastTyped(sh, text).Err?
    ensures CastTyped(sh, text).error == TypeMismatch(SplitTwoValues(text, TypeDelimiter).0, Tag(sh))
  {
  }

  /** A vector header `v$<tag>$` followed by a payload without `"$"` splits into exactly those three parts. */
  lemma {:induction false} VectorTypedSplits(e: Shape, payload: string)
    requires '$' !in payload
    ensures Split("v$" + Tag(e) + "$" + payload, TypeDelimiter) == [VectorTag, Tag(e), payload]
  {
    var rest := Tag(e) + TypeDelimiter + payload;
    assert "v$" + Tag(e) + "$" + payload == VectorTag + TypeDelimiter + rest;
    SplitHead(VectorTag, TypeDelimiter, rest);
    SplitHead(Tag(e), TypeDelimiter, payload);
    SplitAvoiding(payload, TypeDelimiter);
  }

  /**
   A non-empty vector of scalars whose raw texts hold neither `"^"` nor `"$"`
   survives the tagged round trip.
   */
  lemma {:induction false} VectorTypedRoundTrip(e: Shape, xs: seq<Value>)
    requires IsScalar(e) && |xs| >= 1
    requires forall i :: 0 <= i < |xs| ==> HasShape(xs[i], e)
    requires forall i :: 0 <= i < |xs| ==> '^' !in ToString(e, xs[i]) && '$' !in ToString(e, xs[i])
    ensures CastTyped(Vec(e), ToTyped(Vec(e), VV(xs))) == Ok(VV(xs))
  {
    var texts := RenderEach(e, xs);
    var payload := ToString(Vec(e), VV(xs));
    assert payload == Join(texts, ContainerValuesDelimiter);
    JoinAvoids(texts, ContainerValuesDelimiter, '$');
    VectorTypedSplits(e, payload);
    var text := ToTyped(Vec(e), VV(xs));
    assert Split(text, TypeDelimiter) == [VectorTag, Tag(e), payload];
    assert CastTyped(Vec(e), text) == Ok(Cast(Vec(e), payload));
    VectorRoundTrip(e, xs);
  }

  /** A non-empty vector of scalars whose raw texts hold no `"^"` survives the raw round trip. */
  lemma {:induction false} VectorRoundTrip(e: Shape, xs: seq<Value>)
    requires IsScalar(e) && |xs| >= 1
    requires forall i :: 0 <= i < |xs| ==> HasShape(xs[i], e)
    requires forall i :: 0 <= i < |xs| ==> '^' !in ToString(e, xs[i])
    ensures Cast(Vec(e), ToString(Vec(e), VV(xs))) == VV(xs)
  {
    var texts := RenderEach(e, xs);
    var payload := ToString(Vec(e), VV(xs));
    assert payload == Join(texts, ContainerValuesDelimiter);
    SplitJoin(texts, ContainerValuesDelimiter);
    var back := Cast(Vec(e), payload);
    assert |back.elems| == |xs|;
    forall i | 0 <= i < |xs|
      ensures back.elems[i] == xs[i]
    {
      assert back.elems[i] == Cast(e, texts[i]);
      assert texts[i] == ToString(e, xs[i]);
      ScalarRoundTrip(e, xs[i]);
    }
    assert back.elems == xs;
  }

  /**
   The empty vector does not survive the tagged round trip: its text `v$<tag>$`
   has an empty payload, whose split is one empty part, so it reads back as a
   one-element vector.
   */
  lemma {:induction false} EmptyVectorReadsOneElement(e: Shape)
    ensures CastTyped(Vec(e), ToTyped(Vec(e), VV([]))) == Ok(VV([Cast(e, "")]))
  {
    var text := ToTyped(Vec(e), VV([]));
    assert text == "v$" + Tag(e) + "$" + "";
    VectorTypedSplits(e, "");
    SplitAvoiding("", ContainerValuesDelimiter);
    var back := Cast(Vec(e), "");
    assert CastTyped(Vec(e), text) == Ok(back);
    assert |back.elems| == 1 && back.elems[0] == Cast(e, "");
    assert back.elems == [Cast(e, "")];
  }

  /** A vector text whose outer or inner tag is wrong is a type mismatch, the inner one checked second. */
  lemma {:induction false} VectorTagMismatch(e: Shape, text: string)
    requires |Split(text, TypeDelimiter)| == 3
    ensures Split(text, TypeDelimiter)[0] != VectorTag ==>
      CastTyped(Vec(e), text) == Err(TypeMismatch(Split(text, TypeDelimiter)[0], VectorTag))
    ensures Split(text, TypeDelimiter)[0] == VectorTag && Split(text, TypeDelimiter)[1] != Tag(e) ==>
      CastTyped(Vec(e), text) == Err(TypeMismatch(Split(text, TypeDelimiter)[1], VectorTag))
    ensures Split(text, TypeDelimiter)[0] == VectorTag && Split(text, TypeDelimiter)[1] == Tag(e) ==>
      CastTyped(Vec(e), text) == Ok(Cast(Vec(e), Split(text, TypeDelimiter)[2]))
  {
  }
}

=== FILE: decimal.dfy ===
/**
 Decimal text of integers, as the integral converter produces and reads it:
 `std::to_string` on encode and `std::stringstream >>` on decode. Integers are
 unbounded here; the fixed widths of the C++ integral types are not modelled.
 */
module Decimal {

  predicate IsDigit(c: char)
  {
    '0' <= c <= '9'
  }

  /** The characters `isspace` accepts in the "C" locale: space, and tab through carriage return. */
  predicate IsSpace(c: char)
  {
    c == ' ' || '\t' <= c <= '\r'
  }

  predicate AllDigits(s: string)
  {
    forall i :: 0 <= i < |s| ==> IsDigit(s[i])
  }

  function DigitValue(c: char): nat
    requires IsDigit(c)
  {
    c as int - '0' as int
  }

  function DigitChar(n: nat): (c: char)
    requires n < 10
    ensures IsDigit(c) && DigitValue(c) == n
  {
    (n + '0' as int) as char
  }

  /** The value of a run of decimal digits, most significant first. */
  function DigitsValue(s: string): nat
    requires AllDigits(s)
  {
    if |s| == 0 then 0 else DigitsValue(s[..|s| - 1]) * 10 + DigitValue(s[|s| - 1])
  }

  /** The digits of `n`, most significant first, with no leading zero. */
  function NatToString(n: nat): (s: string)
    ensures |s| >= 1 && AllDigits(s)
    ensures |s| > 1 ==> s[0] != '0'
    decreases n
  {
    if n < 10 then [DigitChar(n)] else NatToString(n / 10) + [DigitChar(n % 10)]
  }

  /** `std::to_string` for an integral value: a minus sign for negatives, then the digits. */
  function IntToString(n: int): (s: string)
    ensures |s| >= 1
    ensures forall i :: 0 <= i < |s| ==> IsDigit(s[i]) || s[i] == '-'
  {
    if n < 0 then "-" + NatToString(-n) else NatToString(n)
  }

  /** The text `std::to_string` can produce: digits without a leading zero, after an optional minus on a non-zero number. */
  predicate Canonical(s: string)
  {
    if |s| > 0 && s[0] == '-' then
      |s| >= 2 && AllDigits(s[1..]) && s[1] != '0'
    else
      |s| >= 1 && AllDigits(s) && (|s| == 1 || s[0] != '0')
  }

  function SkipSpaces(s: string): (t: string)
    ensures |t| <= |s| && t == s[|s| - |t|..]
    ensures forall i :: 0 <= i < |s| - |t| ==> IsSpace(s[i])
    ensures |t| > 0 ==> !IsSpace(t[0])
  {
    if |s| > 0 && IsSpace(s[0]) then SkipSpaces(s[1..]) else s
  }

  /** The longest run of digits at the start of `s`. */
  function DigitPrefix(s: string): (p: string)
    ensures AllDigits(p) && |p| <= |s| && p == s[..|p|]
    ensures |p| < |s| ==> !IsDigit(s[|p|])
  {
    if |s| > 0 && IsDigit(s[0]) then [s[0]] + DigitPrefix(s[1..]) else ""
  }

  /**
   `stringstream >> n` for an integral `n`: leading white space is skipped, an
   optional sign is read, then as many digits as follow; text that does not
   start a number reads as 0.
   */
  function ParseInt(s: string): int
  {
    var t := SkipSpaces(s);
    if |t| > 0 && (t[0] == '-' || t[0] == '+') then
      var digits := DigitPrefix(t[1..]);
      if |digits| == 0 then 0
      else if t[0] == '-' then -(DigitsValue(digits) as int)
      else DigitsValue(digits)
    else
      var digits := DigitPrefix(t);
      if |digits| == 0 then 0 else DigitsValue(digits)
  }

  lemma {:induction false} DigitPrefixOfDigits(s: string)
    requires AllDigits(s)
    ensures DigitPrefix(s) == s
    decreases |s|
  {
    if |s| > 0 {
      DigitPrefixOfDigits(s[1..]);
      assert [s[0]] + s[1..] == s;
    }
  }

  lemma {:induction false} NatToStringValue(n: nat)
    ensures DigitsValue(NatToString(n)) == n
    decreases n
  {
    if n >= 10 {
      var a := NatToString(n / 10);
      NatToStringValue(n / 10);
      assert (a + [DigitChar(n % 10)])[..|a|] == a;
    }
  }

  /** A run of digits with a non-zero first digit has a non-zero value. */
  lemma {:induction false} LeadingDigitPositive(s: string)
    requires |s| >= 1 && AllDigits(s) && s[0] != '0'
    ensures DigitsValue(s) >= 1
    decreases |s|
  {
    if |s| > 1 {
      LeadingDigitPositive(s[..|s| - 1]);
    }
  }

  /** Digits without a leading zero are the rendering of their own value. */
  lemma {:induction false} DigitsValueToString(s: string)
    requires |s| >= 1 && AllDigits(s) && (|s| == 1 || s[0] != '0')
    ensures NatToString(DigitsValue(s)) == s
    decreases |s|
  {
    var n := DigitsValue(s);
    if |s| > 1 {
      var a := s[..|s| - 1];
      LeadingDigitPositive(a);
      DigitsValueToString(a);
      assert n / 10 == DigitsValue(a) && n % 10 == DigitValue(s[|s| - 1]);
      assert s == a + [s[|s| - 1]];
    }
  }

  /** Reading back the digits of a natural number gives the number. */
  lemma {:induction false} ParseNatToString(n: nat)
    ensures SkipSpaces(NatToString(n)) == NatToString(n)
    ensures DigitPrefix(NatToString(n)) == NatToString(n)
    ensures DigitsValue(NatToString(n)) == n
  {
    var s := NatToString(n);
    assert !IsSpace(s[0]) by {
      assert IsDigit(s[0]);
    }
    DigitPrefixOfDigits(s);
    NatToStringValue(n);
  }

  /** Reading back the text `std::to_string` wrote gives the number. */
  lemma {:induction false} ParseIntToString(n: int)
    ensures ParseInt(IntToString(n)) == n
  {
    var s := IntToString(n);
    if n < 0 {
      ParseNatToString(-n);
      assert s[1..] == NatToString(-n);
      assert SkipSpaces(s) == s;
    } else {
      ParseNatToString(n);
    }
  }

  /** On canonical text the reading is undone by `std::to_string`: the two are inverse. */
  lemma {:induction false} IntToStringParse(s: string)
    requires Canonical(s)
    ensures IntToString(ParseInt(s)) == s
  {
    assert SkipSpaces(s) == s;
    if s[0] == '-' {
      var digits := s[1..];
      DigitPrefixOfDigits(digits);
      LeadingDigitPositive(digits);
      DigitsValueToString(digits);
      assert s == "-" + digits;
    } else {
      DigitPrefixOfDigits(s);
      DigitsValueToString(s);
    }
  }

  /** The sign of the value read is the sign written after the white space: a negative value needs a `-` and a digit. */
  lemma ParseIntSign(s: string)
    ensures ParseInt(s) < 0 ==> |SkipSpaces(s)| >= 2 && SkipSpaces(s)[0] == '-' && IsDigit(SkipSpaces(s)[1])
    ensures ParseInt(s) > 0 ==> |SkipSpaces(s)| >= 1 && (IsDigit(SkipSpaces(s)[0]) || SkipSpaces(s)[0] == '+')
  {
  }

  /** A run of digits reads as its value. */
  lemma ParseIntDigits(s: string)
    requires |s| >= 1 && AllDigits(s)
    ensures ParseInt(s) == DigitsValue(s)
  {
    assert IsDigit(s[0]);
    assert SkipSpaces(s) == s;
    assert s[0] != '-' && s[0] != '+';
    DigitPrefixOfDigits(s);
  }

  /** A sign followed by a run of digits reads as the digits' value with that sign. */
  lemma ParseIntSignedDigits(sign: char, s: string)
    requires sign == '-' || sign == '+'
    requires |s| >= 1 && AllDigits(s)
    ensures ParseInt([sign] + s) == if sign == '-' then -(DigitsValue(s) as int) else DigitsValue(s)
  {
    var t := [sign] + s;
    assert SkipSpaces(t) == t;
    assert t[1..] == s;
    DigitPrefixOfDigits(s);
  }

  /** A sign with no digits after it reads as 0. */
  lemma ParseIntSignOnly(sign: char)
    requires sign == '-' || sign == '+'
    ensures ParseInt([sign]) == 0
  {
    var t := [sign];
    assert SkipSpaces(t) == t;
    assert |t[1..]| == 0;
  }

  /** Text starting with anything but white space, a sign or a digit reads as 0. */
  lemma ParseIntNonNumeric(s: string)
    requires |s| == 0 || (!IsSpace(s[0]) && !IsDigit(s[0]) && s[0] != '-' && s[0] != '+')
    ensures ParseInt(s) == 0
  {
  }
}

=== FILE: errors.dfy ===
/**
 The failures of the codec. csconverter throws `std::runtime_error` with a
 message built by `CS::Errors`; the model returns them as the `Err` case of
 `Result`, keeping the data the message is built from, and renders the same
 message text on demand.
 */
module Errors {
  import opened Grammar

  datatype Error =
    /** A tagged value whose tag is not the converter's. */
    | TypeMismatch(typeUsed: string, typeRequired: string)
    /** `pushValue` with a name that is already registered. */
    | TypeRedefinition(key: string)
    /** A map entry that splits into fewer than two parts: the C++ code indexes past the end. */
    | MissingMapValue(entry: string)
    /** A record line with fewer segments than fields: the C++ code calls `back()` on an empty vector. */
    | MissingSegment(field: string)

  datatype Result<T> = Ok(value: T) | Err(error: Error) {
    predicate IsFailure() { Err? }

    function PropagateFailure<U>(): Result<U>
      requires Err?
    {
      Err(error)
    }

    function Extract(): T
      requires Ok?
    {
      value
    }
  }

  const MismatchPrefix := "Type mismatch. Trying to convert from "
  const RedefinitionPrefix := "Type Redefinition. Trying to write "
  const RedefinitionSuffix := " when already defined."

  /**
   The message of `throwExceptionWithTypeMismatch`. As written, both slots are
   filled from the tag used, so the required tag never reaches the text.
   */
  function TypeMismatchMessage(typeUsed: string, typeRequired: string): (msg: string)
    ensures |msg| == |MismatchPrefix| + 2 * |TryGetFullType(typeUsed)| + |" to "|
    ensures msg[..|MismatchPrefix|] == MismatchPrefix
    ensures msg[|MismatchPrefix|..|MismatchPrefix| + |TryGetFullType(typeUsed)|] == TryGetFullType(typeUsed)
    ensures msg[|MismatchPrefix| + |TryGetFullType(typeUsed)|..|msg| - |TryGetFullType(typeUsed)|] == " to "
    ensures msg[|msg| - |TryGetFullType(typeUsed)|..] == TryGetFullType(typeUsed)
    ensures typeUsed !in NamedTags ==> msg == MismatchPrefix + "Undefined to Undefined"
  {
    var usedFullType := TryGetFullType(typeUsed);
    var requiredFullType := TryGetFullType(typeUsed);
    FourSlices(MismatchPrefix, usedFullType, " to ", requiredFullType);
    MismatchPrefix + usedFullType + " to " + requiredFullType
  }

  /** Each of four concatenated texts is found at its own place in the concatenation. */
  lemma FourSlices(a: string, b: string, c: string, d: string)
    ensures var x := a + b + c + d;
      && |x| == |a| + |b| + |c| + |d|
      && x[..|a|] == a && x[|a|..|a| + |b|] == b
      && x[|a| + |b|..|x| - |d|] == c && x[|x| - |d|..] == d
  {
    var x := a + b + c + d;
    assert x == a + b + c + d;
    assert x[..|a|] == a;
    assert x[|a|..|a| + |b|] == b;
    assert x[|a| + |b|..|x| - |d|] == c;
  }

  /** The required tag has no influence on the mismatch message. */
  lemma {:induction false} MismatchMessageIgnoresRequired(typeUsed: string, required1: string, required2: string)
    ensures TypeMismatchMessage(typeUsed, required1) == TypeMismatchMessage(typeUsed, required2)
  {
  }

  /**
   Converting an integral text to a string reports "from Integral to Integral":
   the required type's name does not appear.
   */
  lemma MismatchMessageExample()
    ensures TypeMismatchMessage(IntegralTag, StringTag)
         == "Type mismatch. Trying to convert from Integral to Integral"
  {
    assert TryGetFullType(IntegralTag) == "Integral";
  }

  /** The message of `throwExceptionTypeRedefinition`, which embeds the key verbatim. */
  function TypeRedefinitionMessage(key: string): (msg: string)
    ensures |msg| == |RedefinitionPrefix| + |key| + |RedefinitionSuffix|
    ensures msg[..|RedefinitionPrefix|] == RedefinitionPrefix
    ensures msg[|RedefinitionPrefix|..|RedefinitionPrefix| + |key|] == key
    ensures msg[|RedefinitionPrefix| + |key|..] == RedefinitionSuffix
  {
    RedefinitionPrefix + key + RedefinitionSuffix
  }

  /** The key can be read back out of a redefinition message, so different keys give different messages. */
  lemma {:induction false} RedefinitionMessageInjective(key1: string, key2: string)
    requires TypeRedefinitionMessage(key1) == TypeRedefinitionMessage(key2)
    ensures key1 == key2
  {
    var m := TypeRedefinitionMessage(key1);
    assert |key1| == |key2|;
    assert key1 == m[|RedefinitionPrefix|..|RedefinitionPrefix| + |key1|];
  }
}

=== FILE: fields.dfy ===
/**
 The field wrappers of a record: `ConvertableValue<T>`, which writes a field
 in tagged form and reads it back with the raw `cast`, and its `std::map`
 specialisation, which writes and reads key/value entries. A `std::map` is
 modelled as its entry list in ascending key order.

 The map wrapper uses `"#"` together with a second delimiter,
 `csMapKeyValueDelimiter`, that the C++ code never declares. It is the
 parameter `kvd` here, taken to be a single character other than `"#"`.
 */
module Fields {
  import opened Text
  import opened Grammar
  import opened Errors
  import opened Decimal
  import opened Converters

  /** The type of a registered field: one with a value converter, or a `std::map` of two. */
  datatype FieldKind = Plain(shape: Shape) | MapOf(keyShape: Shape, valueShape: Shape)

  /** The storage a field points at: a value, or a map's entries in ascending key order. */
  datatype Slot = Single(value: Value) | Entries(entries: seq<(Value, Value)>)

  /** Map keys are ordered by `std::less`, so only key shapes with a total order are modelled. */
  predicate ValidKind(kind: FieldKind)
  {
    kind.MapOf? ==> IsScalar(kind.keyShape)
  }

  /** The key/value delimiter of the map wrapper: one character, not the map delimiter `"#"`. */
  predicate ValidKeyValueDelimiter(kvd: string)
  {
    |kvd| == 1 && kvd != MapValueDelimiter
  }

  /** `std::less` on map keys of one scalar shape. */
  predicate KeyLess(a: Value, b: Value)
  {
    match (a, b)
    case (SV(x), SV(y)) => StrLess(x, y)
    case (IV(x), IV(y)) => x < y
    case (EV(x), EV(y)) => x < y
    case (BV(x), BV(y)) => !x && y
    case _ => false
  }

  lemma KeyLessIrreflexive(a: Value)
    ensures !KeyLess(a, a)
  {
    if a.SV? {
      StrLessIrreflexive(a.str);
    }
  }

  lemma KeyLessTransitive(a: Value, b: Value, c: Value)
    requires KeyLess(a, b) && KeyLess(b, c)
    ensures KeyLess(a, c)
  {
    if a.SV? {
      StrLessTransitive(a.str, b.str, c.str);
    }
  }

  /** Two different keys of the same scalar shape are ordered one way or the other. */
  lemma KeyLessTotal(a: Value, b: Value, sh: Shape)
    requires IsScalar(sh) && HasShape(a, sh) && HasShape(b, sh) && a != b
    ensures KeyLess(a, b) || KeyLess(b, a)
  {
    if sh == Str {
      StrLessTotal(a.str, b.str);
    }
  }

  predicate KeysAscending(es: seq<(Value, Value)>)
  {
    forall i, j :: 0 <= i < j < |es| ==> KeyLess(es[i].0, es[j].0)
  }

  predicate KeysHaveShape(es: seq<(Value, Value)>, ks: Shape)
  {
    forall i :: 0 <= i < |es| ==> HasShape(es[i].0, ks)
  }

  predicate EntriesHaveShapes(es: seq<(Value, Value)>, ks: Shape, vs: Shape)
  {
    KeysHaveShape(es, ks) && forall i :: 0 <= i < |es| ==> HasShape(es[i].1, vs)
  }

  function Keys(es: seq<(Value, Value)>): set<Value>
  {
    set i | 0 <= i < |es| :: es[i].0
  }

  /** The slot holds what a field of this kind points at. */
  predicate Fits(kind: FieldKind, slot: Slot)
  {
    match kind
    case Plain(sh) => slot.Single? && HasShape(slot.value, sh)
    case MapOf(ks, vs) =>
      slot.Entries? && EntriesHaveShapes(slot.entries, ks, vs) && KeysAscending(slot.entries)
  }

  /**
   `std::map::emplace`: a new key is inserted at its place in key order; a key
   already present keeps its entry and the map is unchanged.
   */
  function Emplace(ks: Shape, es: seq<(Value, Value)>, k: Value, v: Value): (r: seq<(Value, Value)>)
    requires IsScalar(ks) && HasShape(k, ks) && KeysHaveShape(es, ks) && KeysAscending(es)
    ensures KeysAscending(r) && KeysHaveShape(r, ks)
    ensures k in Keys(es) ==> r == es
    ensures k !in Keys(es) ==> |r| == |es| + 1 && forall e :: e in r <==> e in es || e == (k, v)
  {
    if |es| == 0 then [(k, v)]
    else if es[0].0 == k then
      assert k in Keys(es);
      es
    else if KeyLess(k, es[0].0) then
      var r := [(k, v)] + es;
      forall j | 1 <= j < |r|
        ensures KeyLess(k, r[j].0)
      {
        if j > 1 {
          KeyLessTransitive(k, es[0].0, r[j].0);
        }
      }
      BelowFirstKeyAbsent(es, k);
      r
    else
      KeyLessTotal(k, es[0].0, ks);
      var tail := Emplace(ks, es[1..], k, v);
      var r := [es[0]] + tail;
      forall j | 1 <= j < |r|
        ensures KeyLess(es[0].0, r[j].0)
      {
        assert r[j] in tail;
      }
      KeysCons(es);
      assert es == [es[0]] + es[1..];
      r
  }

  /** A key below the first key of an ascending map is below all of them, so it is absent. */
  lemma BelowFirstKeyAbsent(es: seq<(Value, Value)>, k: Value)
    requires KeysAscending(es) && |es| > 0 && KeyLess(k, es[0].0)
    ensures k !in Keys(es)
  {
    forall i | 0 <= i < |es|
      ensures es[i].0 != k
    {
      KeyLessIrreflexive(k);
      if i > 0 && es[i].0 == k {
        KeyLessTransitive(k, es[0].0, k);
      }
    }
  }

  lemma KeysCons(es: seq<(Value, Value)>)
    requires |es| > 0
    ensures Keys(es) == {es[0].0} + Keys(es[1..])
  {
    forall x | x in Keys(es)
      ensures x in {es[0].0} + Keys(es[1..])
    {
      var i :| 0 <= i < |es| && es[i].0 == x;
      if i > 0 {
        assert es[1..][i - 1].0 == x;
      }
    }
  }

  /** Emplacing keeps every entry there was and the shapes of all entries. */
  lemma {:induction false} EmplaceKeeps(ks: Shape, vs: Shape, es: seq<(Value, Value)>, k: Value, v: Value)
    requires IsScalar(ks) && HasShape(k, ks) && HasShape(v, vs)
    requires EntriesHaveShapes(es, ks, vs) && KeysAscending(es)
    ensures EntriesHaveShapes(Emplace(ks, es, k, v), ks, vs)
    ensures forall e :: e in es ==> e in Emplace(ks, es, k, v)
  {
    var r := Emplace(ks, es, k, v);
    forall i | 0 <= i < |r|
      ensures HasShape(r[i].1, vs)
    {
      if k !in Keys(es) {
        assert r[i] in r;
      }
    }
  }

  /** A map entry as the wrapper writes it: raw key, `"#"`, raw value. */
  function EntryText(ks: Shape, vs: Shape, e: (Value, Value)): string
    requires HasShape(e.0, ks) && HasShape(e.1, vs)
  {
    ToString(ks, e.0) + MapValueDelimiter + ToString(vs, e.1)
  }

  function EntryTexts(ks: Shape, vs: Shape, es: seq<(Value, Value)>): (texts: seq<string>)
    requires EntriesHaveShapes(es, ks, vs)
    ensures |texts| == |es|
  {
    seq(|es|, i requires 0 <= i < |es| => EntryText(ks, vs, es[i]))
  }

  /**
   The map wrapper's `asString`: the entries in ascending key order, each
   written as key, `"#"`, value, separated by `kvd`, and no tag header.
   */
  function MapAsString(ks: Shape, vs: Shape, es: seq<(Value, Value)>, kvd: string): (text: string)
    requires EntriesHaveShapes(es, ks, vs)
    ensures |es| == 0 ==> text == ""
    ensures |es| == 1 ==> text == ToString(ks, es[0].0) + "#" + ToString(vs, es[0].1)
  {
    Join(EntryTexts(ks, vs, es), kvd)
  }

  /** When no entry text holds `kvd`, splitting the map text on `kvd` gives the entries in key order. */
  lemma {:induction false} MapAsStringEntries(ks: Shape, vs: Shape, es: seq<(Value, Value)>, kvd: string)
    requires EntriesHaveShapes(es, ks, vs) && ValidKeyValueDelimiter(kvd) && |es| >= 1
    requires forall i :: 0 <= i < |es| ==> kvd[0] !in EntryText(ks, vs, es[i])
    ensures Split(MapAsString(ks, vs, es, kvd), kvd) == EntryTexts(ks, vs, es)
  {
    SplitJoin(EntryTexts(ks, vs, es), kvd);
  }

  /**
   The pieces loop of the map wrapper's `setValue`: each piece is split on
   `kvd` and its first two parts, cast, are emplaced. A piece with fewer than
   two parts is indexed past its end in the C++ code, an error here.
   */
  function EmplacePieces(ks: Shape, vs: Shape, es: seq<(Value, Value)>, pieces: seq<string>, kvd: string)
    : (r: Result<seq<(Value, Value)>>)
    requires IsScalar(ks) && |kvd| > 0
    requires EntriesHaveShapes(es, ks, vs) && KeysAscending(es)
    ensures r.Ok? ==> EntriesHaveShapes(r.value, ks, vs) && KeysAscending(r.value)
    ensures r.Ok? ==> forall e :: e in es ==> e in r.value
    decreases |pieces|
  {
    if |pieces| == 0 then Ok(es)
    else
      var parts := Split(pieces[0], kvd);
      if |parts| < 2 then Err(MissingMapValue(pieces[0]))
      else
        var k, v := Cast(ks, parts[0]), Cast(vs, parts[1]);
        EmplaceKeeps(ks, vs, es, k, v);
        EmplacePieces(ks, vs, Emplace(ks, es, k, v), pieces[1..], kvd)
  }

  /** The key a piece is read into: the cast of its first `kvd` part. */
  function PieceKey(ks: Shape, piece: string, kvd: string): Value
    requires |kvd| > 0
  {
    Cast(ks, Split(piece, kvd)[0])
  }

  /** The value a piece is read into: the cast of its second `kvd` part. */
  function PieceValue(vs: Shape, piece: string, kvd: string): Value
    requires |kvd| > 0 && |Split(piece, kvd)| >= 2
  {
    Cast(vs, Split(piece, kvd)[1])
  }

  /** No piece before position `i` is read into the key of piece `i`. */
  predicate FirstWithKey(ks: Shape, pieces: seq<string>, i: nat, kvd: string)
    requires |kvd| > 0 && i < |pieces|
  {
    forall j :: 0 <= j < i ==> PieceKey(ks, pieces[j], kvd) != PieceKey(ks, pieces[i], kvd)
  }

  function PieceKeys(ks: Shape, pieces: seq<string>, kvd: string): set<Value>
    requires |kvd| > 0
  {
    set i | 0 <= i < |pieces| :: PieceKey(ks, pieces[i], kvd)
  }

  /** Emplacing adds exactly the key emplaced to the keys. */
  lemma EmplaceKeys(ks: Shape, es: seq<(Value, Value)>, k: Value, v: Value)
    requires IsScalar(ks) && HasShape(k, ks) && KeysHaveShape(es, ks) && KeysAscending(es)
    ensures Keys(Emplace(ks, es, k, v)) == Keys(es) + {k}
  {
    var r := Emplace(ks, es, k, v);
    if k !in Keys(es) {
      forall x | x in Keys(r)
        ensures x in Keys(es) + {k}
      {
        var i :| 0 <= i < |r| && r[i].0 == x;
        assert r[i] in r;
        if r[i] in es {
          var j :| 0 <= j < |es| && es[j] == r[i];
        }
      }
      forall x | x in Keys(es) + {k}
        ensures x in Keys(r)
      {
        if x == k {
          assert (k, v) in r;
          var i :| 0 <= i < |r| && r[i] == (k, v);
        } else {
          var j :| 0 <= j < |es| && es[j].0 == x;
          assert es[j] in r;
          var i :| 0 <= i < |r| && r[i] == es[j];
        }
      }
    }
  }

  /** The keys of the pieces after the first, with the first piece's key added. */
  lemma PieceKeysCons(ks: Shape, pieces: seq<string>, kvd: string)
    requires |kvd| > 0 && |pieces| > 0
    ensures PieceKeys(ks, pieces, kvd) == {PieceKey(ks, pieces[0], kvd)} + PieceKeys(ks, pieces[1..], kvd)
  {
    var rest := pieces[1..];
    forall x | x in PieceKeys(ks, pieces, kvd)
      ensures x in {PieceKey(ks, pieces[0], kvd)} + PieceKeys(ks, rest, kvd)
    {
      var i :| 0 <= i < |pieces| && PieceKey(ks, pieces[i], kvd) == x;
      if i > 0 {
        assert rest[i - 1] == pieces[i];
      }
    }
    forall x | x in PieceKeys(ks, rest, kvd)
      ensures x in PieceKeys(ks, pieces, kvd)
    {
      var i :| 0 <= i < |rest| && PieceKey(ks, rest[i], kvd) == x;
      assert rest[i] == pieces[i + 1];
    }
  }

  /** A successful read splits every piece into at least two parts. */
  lemma EmplacePiecesSplit(ks: Shape, vs: Shape, es: seq<(Value, Value)>, pieces: seq<string>, kvd: string)
    requires IsScalar(ks) && |kvd| > 0
    requires EntriesHaveShapes(es, ks, vs) && KeysAscending(es)
    requires EmplacePieces(ks, vs, es, pieces, kvd).Ok?
    ensures forall i :: 0 <= i < |pieces| ==> |Split(pieces[i], kvd)| >= 2
  {
    EmplacePiecesOk(ks, vs, es, pieces, kvd);
  }

  /** The keys after the pieces loop are the old keys and the pieces' keys. */
  lemma {:induction false} EmplacePiecesKeys(ks: Shape, vs: Shape, es: seq<(Value, Value)>,
                                             pieces: seq<string>, kvd: string)
    requires IsScalar(ks) && |kvd| > 0
    requires EntriesHaveShapes(es, ks, vs) && KeysAscending(es)
    requires EmplacePieces(ks, vs, es, pieces, kvd).Ok?
    ensures Keys(EmplacePieces(ks, vs, es, pieces, kvd).value) == Keys(es) + PieceKeys(ks, pieces, kvd)
    decreases |pieces|
  {
    if |pieces| > 0 {
      EmplacePiecesSplit(ks, vs, es, pieces, kvd);
      var k, v := PieceKey(ks, pieces[0], kvd), PieceValue(vs, pieces[0], kvd);
      EmplaceKeeps(ks, vs, es, k, v);
      var es' := Emplace(ks, es, k, v);
      assert EmplacePieces(ks, vs, es, pieces, kvd) == EmplacePieces(ks, vs, es', pieces[1..], kvd);
      EmplacePiecesKeys(ks, vs, es', pieces[1..], kvd);
      EmplaceKeys(ks, es, k, v);
      PieceKeysCons(ks, pieces, kvd);
    }
  }

  /** Every piece whose key is new, and not read by an earlier piece, adds its entry. */
  lemma {:induction false} EmplacePiecesAddsAll(ks: Shape, vs: Shape, es: seq<(Value, Value)>,
                                                pieces: seq<string>, kvd: string)
    requires IsScalar(ks) && |kvd| > 0
    requires EntriesHaveShapes(es, ks, vs) && KeysAscending(es)
    requires EmplacePieces(ks, vs, es, pieces, kvd).Ok?
    ensures forall i :: 0 <= i < |pieces| ==> |Split(pieces[i], kvd)| >= 2
    ensures forall i :: 0 <= i < |pieces| && PieceKey(ks, pieces[i], kvd) !in Keys(es) && FirstWithKey(ks, pieces, i, kvd)
              ==> (PieceKey(ks, pieces[i], kvd), PieceValue(vs, pieces[i], kvd)) in EmplacePieces(ks, vs, es, pieces, kvd).value
    decreases |pieces|
  {
    EmplacePiecesSplit(ks, vs, es, pieces, kvd);
    if |pieces| > 0 {
      var k, v := PieceKey(ks, pieces[0], kvd), PieceValue(vs, pieces[0], kvd);
      EmplaceKeeps(ks, vs, es, k, v);
      var es' := Emplace(ks, es, k, v);
      assert EmplacePieces(ks, vs, es, pieces, kvd) == EmplacePieces(ks, vs, es', pieces[1..], kvd);
      EmplacePiecesAddsAll(ks, vs, es', pieces[1..], kvd);
      EmplaceKeys(ks, es, k, v);
      EmplacePiecesAdds(ks, vs, es, pieces, kvd);
    }
  }

  /** Every entry after the pieces loop is an old entry or the entry of some piece. */
  lemma {:induction false} EmplacePiecesOrigin(ks: Shape, vs: Shape, es: seq<(Value, Value)>,
                                               pieces: seq<string>, kvd: string)
    requires IsScalar(ks) && |kvd| > 0
    requires EntriesHaveShapes(es, ks, vs) && KeysAscending(es)
    requires EmplacePieces(ks, vs, es, pieces, kvd).Ok?
    ensures forall i :: 0 <= i < |pieces| ==> |Split(pieces[i], kvd)| >= 2
    ensures forall e :: e in EmplacePieces(ks, vs, es, pieces, kvd).value
              ==> e in es || exists i :: 0 <= i < |pieces| && e == (PieceKey(ks, pieces[i], kvd), PieceValue(vs, pieces[i], kvd))
    decreases |pieces|
  {
    EmplacePiecesSplit(ks, vs, es, pieces, kvd);
    if |pieces| > 0 {
      var rest := pieces[1..];
      var k, v := PieceKey(ks, pieces[0], kvd), PieceValue(vs, pieces[0], kvd);
      EmplaceKeeps(ks, vs, es, k, v);
      var es' := Emplace(ks, es, k, v);
      var r := EmplacePieces(ks, vs, es', rest, kvd).value;
      assert EmplacePieces(ks, vs, es, pieces, kvd).value == r;
      EmplacePiecesOrigin(ks, vs, es', rest, kvd);
      forall e | e in r
        ensures e in es || exists i :: 0 <= i < |pieces| && e == (PieceKey(ks, pieces[i], kvd), PieceValue(vs, pieces[i], kvd))
      {
        if e !in es' {
          var i :| 0 <= i < |rest| && e == (PieceKey(ks, rest[i], kvd), PieceValue(vs, rest[i], kvd));
          assert rest[i] == pieces[i + 1];
        } else if e !in es {
          assert e == (PieceKey(ks, pieces[0], kvd), PieceValue(vs, pieces[0], kvd));
        }
      }
    }
  }

  /**
   What the pieces loop reads: the keys of the result are the old keys and the
   pieces' keys; every piece whose key is new, and not read by an earlier piece,
   adds its entry; and every entry of the result is an old one or a piece's.
   */
  lemma EmplacePiecesContents(ks: Shape, vs: Shape, es: seq<(Value, Value)>, pieces: seq<string>, kvd: string)
    requires IsScalar(ks) && |kvd| > 0
    requires EntriesHaveShapes(es, ks, vs) && KeysAscending(es)
    requires EmplacePieces(ks, vs, es, pieces, kvd).Ok?
    ensures forall i :: 0 <= i < |pieces| ==> |Split(pieces[i], kvd)| >= 2
    ensures Keys(EmplacePieces(ks, vs, es, pieces, kvd).value) == Keys(es) + PieceKeys(ks, pieces, kvd)
    ensures forall i :: 0 <= i < |pieces| && PieceKey(ks, pieces[i], kvd) !in Keys(es) && FirstWithKey(ks, pieces, i, kvd)
              ==> (PieceKey(ks, pieces[i], kvd), PieceValue(vs, pieces[i], kvd)) in EmplacePieces(ks, vs, es, pieces, kvd).value
    ensures forall e :: e in EmplacePieces(ks, vs, es, pieces, kvd).value
              ==> e in es || exists i :: 0 <= i < |pieces| && e == (PieceKey(ks, pieces[i], kvd), PieceValue(vs, pieces[i], kvd))
  {
    EmplacePiecesKeys(ks, vs, es, pieces, kvd);
    EmplacePiecesAddsAll(ks, vs, es, pieces, kvd);
    EmplacePiecesOrigin(ks, vs, es, pieces, kvd);
  }

  /** The adding half of `EmplacePiecesContents`, one step of its induction. */
  lemma EmplacePiecesAdds(ks: Shape, vs: Shape, es: seq<(Value, Value)>, pieces: seq<string>, kvd: string)
    requires IsScalar(ks) && |kvd| > 0 && |pieces| > 0
    requires EntriesHaveShapes(es, ks, vs) && KeysAscending(es)
    requires forall i :: 0 <= i < |pieces| ==> |Split(pieces[i], kvd)| >= 2
    requires var es' := Emplace(ks, es, PieceKey(ks, pieces[0], kvd), PieceValue(vs, pieces[0], kvd));
      EntriesHaveShapes(es', ks, vs) && KeysAscending(es') && EmplacePieces(ks, vs, es', pieces[1..], kvd).Ok?
      && Keys(es') == Keys(es) + {PieceKey(ks, pieces[0], kvd)}
      && (forall e :: e in es' ==> e in EmplacePieces(ks, vs, es', pieces[1..], kvd).value)
      && forall i :: 0 <= i < |pieces[1..]| && PieceKey(ks, pieces[1..][i], kvd) !in Keys(es') && FirstWithKey(ks, pieces[1..], i, kvd)
           ==> (PieceKey(ks, pieces[1..][i], kvd), PieceValue(vs, pieces[1..][i], kvd)) in EmplacePieces(ks, vs, es', pieces[1..], kvd).value
    ensures var r := EmplacePieces(ks, vs, Emplace(ks, es, PieceKey(ks, pieces[0], kvd), PieceValue(vs, pieces[0], kvd)), pieces[1..], kvd).value;
      forall i :: 0 <= i < |pieces| && PieceKey(ks, pieces[i], kvd) !in Keys(es) && FirstWithKey(ks, pieces, i, kvd)
        ==> (PieceKey(ks, pieces[i], kvd), PieceValue(vs, pieces[i], kvd)) in r
  {
    var k, v := PieceKey(ks, pieces[0], kvd), PieceValue(vs, pieces[0], kvd);
    var es' := Emplace(ks, es, k, v);
    var rest := pieces[1..];
    var r := EmplacePieces(ks, vs, es', rest, kvd).value;
    forall i | 0 <= i < |pieces| && PieceKey(ks, pieces[i], kvd) !in Keys(es) && FirstWithKey(ks, pieces, i, kvd)
      ensures (PieceKey(ks, pieces[i], kvd), PieceValue(vs, pieces[i], kvd)) in r
    {
      if i == 0 {
        assert (k, v) in es';
      } else {
        assert rest[i - 1] == pieces[i];
        assert PieceKey(ks, pieces[0], kvd) != PieceKey(ks, pieces[i], kvd);
        forall j | 0 <= j < i - 1
          ensures PieceKey(ks, rest[j], kvd) != PieceKey(ks, rest[i - 1], kvd)
        {
          assert rest[j] == pieces[j + 1];
        }
        assert FirstWithKey(ks, rest, i - 1, kvd);
      }
    }
  }

  /** Reading the pieces fails exactly when some piece has no `kvd` to split on. */
  lemma {:induction false} EmplacePiecesOk(ks: Shape, vs: Shape, es: seq<(Value, Value)>, pieces: seq<string>, kvd: string)
    requires IsScalar(ks) && |kvd| > 0
    requires EntriesHaveShapes(es, ks, vs) && KeysAscending(es)
    ensures EmplacePieces(ks, vs, es, pieces, kvd).Ok?
        <==> forall i :: 0 <= i < |pieces| ==> |Split(pieces[i], kvd)| >= 2
    decreases |pieces|
  {
    if |pieces| > 0 {
      var parts := Split(pieces[0], kvd);
      if |parts| >= 2 {
        var k, v := Cast(ks, parts[0]), Cast(vs, parts[1]);
        EmplaceKeeps(ks, vs, es, k, v);
        var es' := Emplace(ks, es, k, v);
        assert EmplacePieces(ks, vs, es, pieces, kvd) == EmplacePieces(ks, vs, es', pieces[1..], kvd);
        EmplacePiecesOk(ks, vs, es', pieces[1..], kvd);
        assert forall i :: 1 <= i < |pieces| ==> pieces[i] == pieces[1..][i - 1];
      } else {
        assert EmplacePieces(ks, vs, es, pieces, kvd).Err?;
      }
    }
  }

  /**
   The map wrapper's `setValue`: split on `"#"`, then each piece on `kvd`.
   Entries already in the map are never removed or overwritten.
   */
  function MapSetValue(ks: Shape, vs: Shape, es: seq<(Value, Value)>, text: string, kvd: string)
    : (r: Result<seq<(Value, Value)>>)
    requires IsScalar(ks) && |kvd| > 0
    requires EntriesHaveShapes(es, ks, vs) && KeysAscending(es)
    ensures r.Ok? ==> EntriesHaveShapes(r.value, ks, vs) && KeysAscending(r.value)
    ensures r.Ok? ==> forall e :: e in es ==> e in r.value
  {
    EmplacePieces(ks, vs, es, Split(text, MapValueDelimiter), kvd)
  }

  /**
   What the map `setValue` adds: every `"#"` piece of the text is read into the
   cast of its first and second `kvd` parts; the keys become the old keys and
   the pieces' keys; a new key takes the value of its first piece; and nothing
   else enters the map.
   */
  lemma MapSetValueContents(ks: Shape, vs: Shape, es: seq<(Value, Value)>, text: string, kvd: string)
    requires IsScalar(ks) && |kvd| > 0
    requires EntriesHaveShapes(es, ks, vs) && KeysAscending(es)
    requires MapSetValue(ks, vs, es, text, kvd).Ok?
    ensures var pieces := Split(text, MapValueDelimiter);
      && (forall i :: 0 <= i < |pieces| ==> |Split(pieces[i], kvd)| >= 2)
      && Keys(MapSetValue(ks, vs, es, text, kvd).value) == Keys(es) + PieceKeys(ks, pieces, kvd)
      && (forall i :: 0 <= i < |pieces| && PieceKey(ks, pieces[i], kvd) !in Keys(es) && FirstWithKey(ks, pieces, i, kvd)
            ==> (PieceKey(ks, pieces[i], kvd), PieceValue(vs, pieces[i], kvd)) in MapSetValue(ks, vs, es, text, kvd).value)
      && (forall e :: e in MapSetValue(ks, vs, es, text, kvd).value
            ==> e in es || exists i :: 0 <= i < |pieces| && e == (PieceKey(ks, pieces[i], kvd), PieceValue(vs, pieces[i], kvd)))
  {
    EmplacePiecesContents(ks, vs, es, Split(text, MapValueDelimiter), kvd);
  }

  /**
   The two delimiters swap roles between writing and reading, so a map does not
   read back its own text when its first key's text holds neither `"#"` nor
   `kvd`: the empty map writes `""`, and otherwise the first `"#"` piece is the
   first key alone, which has no `kvd` to split on.
   */
  lemma {:induction false} MapTextNotReadable(ks: Shape, vs: Shape, es: seq<(Value, Value)>,
                                              target: seq<(Value, Value)>, kvd: string)
    requires IsScalar(ks) && ValidKeyValueDelimiter(kvd)
    requires EntriesHaveShapes(es, ks, vs)
    requires EntriesHaveShapes(target, ks, vs) && KeysAscending(target)
    requires |es| == 0 || ('#' !in ToString(ks, es[0].0) && kvd[0] !in ToString(ks, es[0].0))
    ensures MapSetValue(ks, vs, target, MapAsString(ks, vs, es, kvd), kvd).Err?
  {
    var text := MapAsString(ks, vs, es, kvd);
    var pieces := Split(text, MapValueDelimiter);
    if |es| == 0 {
      SplitAvoiding("", MapValueDelimiter);
      SplitAvoiding("", kvd);
    } else {
      var key := ToString(ks, es[0].0);
      MapTextHead(ks, vs, es, kvd);
      SplitAvoiding(key, kvd);
    }
  }

  /** The first `"#"` piece of a non-empty map's text is its first key. */
  lemma MapTextHead(ks: Shape, vs: Shape, es: seq<(Value, Value)>, kvd: string)
    requires EntriesHaveShapes(es, ks, vs) && |es| >= 1 && '#' !in ToString(ks, es[0].0)
    ensures Split(MapAsString(ks, vs, es, kvd), MapValueDelimiter)[0] == ToString(ks, es[0].0)
  {
    var key := ToString(ks, es[0].0);
    var texts := EntryTexts(ks, vs, es);
    assert texts[0] == key + MapValueDelimiter + ToString(vs, es[0].1);
    SplitFirstOfJoin(texts, kvd, MapValueDelimiter, key, ToString(vs, es[0].1));
  }

  /** Entries written with the roles swapped, key, `kvd`, value, joined by `"#"`: the layout `setValue` reads. */
  function SwappedEntryText(ks: Shape, vs: Shape, e: (Value, Value), kvd: string): string
    requires HasShape(e.0, ks) && HasShape(e.1, vs)
  {
    ToString(ks, e.0) + kvd + ToString(vs, e.1)
  }

  /** A key greater than every key present is emplaced at the end. */
  lemma {:induction false} EmplaceGreatest(ks: Shape, es: seq<(Value, Value)>, k: Value, v: Value)
    requires IsScalar(ks) && HasShape(k, ks) && KeysHaveShape(es, ks) && KeysAscending(es)
    requires forall i :: 0 <= i < |es| ==> KeyLess(es[i].0, k)
    ensures Emplace(ks, es, k, v) == es + [(k, v)]
    decreases |es|
  {
    if |es| > 0 {
      KeyLessIrreflexive(k);
      if KeyLess(k, es[0].0) {
        KeyLessTransitive(k, es[0].0, k);
      }
      EmplaceGreatest(ks, es[1..], k, v);
      assert [es[0]] + (es[1..] + [(k, v)]) == es + [(k, v)];
    }
  }

  /**
   Text in the swapped layout reads back into an empty map as exactly the
   entries it was written from, when no raw key or value holds `"#"` or `kvd`.
   */
  lemma {:induction false} SwappedLayoutReads(ks: Shape, vs: Shape, es: seq<(Value, Value)>, kvd: string)
    requires IsScalar(ks) && IsScalar(vs) && ValidKeyValueDelimiter(kvd) && |es| >= 1
    requires EntriesHaveShapes(es, ks, vs) && KeysAscending(es)
    requires forall i :: 0 <= i < |es| ==>
      '#' !in ToString(ks, es[i].0) && kvd[0] !in ToString(ks, es[i].0) &&
      '#' !in ToString(vs, es[i].1) && kvd[0] !in ToString(vs, es[i].1)
    ensures MapSetValue(ks, vs, [], Join(seq(|es|, i requires 0 <= i < |es| =>
      SwappedEntryText(ks, vs, es[i], kvd)), MapValueDelimiter), kvd) == Ok(es)
  {
    var pieces := seq(|es|, i requires 0 <= i < |es| => SwappedEntryText(ks, vs, es[i], kvd));
    forall i | 0 <= i < |es|
      ensures '#' !in pieces[i]
    {
      assert pieces[i] == ToString(ks, es[i].0) + kvd + ToString(vs, es[i].1);
    }
    SplitJoin(pieces, MapValueDelimiter);
    EmplaceSwapped(ks, vs, es, pieces, kvd, 0);
    assert es[..0] == [];
    assert pieces[0..] == pieces;
  }

  /** The induction behind `SwappedLayoutReads`: after the first `n` pieces, the map holds the first `n` entries. */
  lemma {:induction false} EmplaceSwapped(ks: Shape, vs: Shape, es: seq<(Value, Value)>, pieces: seq<string>,
                                          kvd: string, n: nat)
    requires IsScalar(ks) && IsScalar(vs) && ValidKeyValueDelimiter(kvd) && n <= |es|
    requires EntriesHaveShapes(es, ks, vs) && KeysAscending(es)
    requires |pieces| == |es|
    requires forall i :: 0 <= i < |es| ==> pieces[i] == SwappedEntryText(ks, vs, es[i], kvd)
    requires forall i :: 0 <= i < |es| ==>
      kvd[0] !in ToString(ks, es[i].0) && kvd[0] !in ToString(vs, es[i].1)
    ensures EmplacePieces(ks, vs, es[..n], pieces[n..], kvd) == Ok(es)
    decreases |es| - n
  {
    if n == |es| {
      assert es[..n] == es;
    } else {
      EmplaceSwappedAt(ks, vs, es, pieces, kvd, n);
      EmplaceSwapped(ks, vs, es, pieces, kvd, n + 1);
    }
  }

  /** The `n`-th piece of the swapped layout appends the `n`-th entry. */
  lemma {:induction false} EmplaceSwappedAt(ks: Shape, vs: Shape, es: seq<(Value, Value)>, pieces: seq<string>,
                                            kvd: string, n: nat)
    requires IsScalar(ks) && IsScalar(vs) && ValidKeyValueDelimiter(kvd) && n < |es|
    requires EntriesHaveShapes(es, ks, vs) && KeysAscending(es)
    requires |pieces| == |es|
    requires pieces[n] == SwappedEntryText(ks, vs, es[n], kvd)
    requires kvd[0] !in ToString(ks, es[n].0) && kvd[0] !in ToString(vs, es[n].1)
    ensures EmplacePieces(ks, vs, es[..n], pieces[n..], kvd) == EmplacePieces(ks, vs, es[..n + 1], pieces[n + 1..], kvd)
  {
    var acc := es[..n];
    PrefixBelow(ks, vs, es, n);
    assert acc + [es[n]] == es[..n + 1] by {
      assert es[..n + 1] == es[..n] + es[n..n + 1];
    }
    assert pieces[n..] == [pieces[n]] + pieces[n + 1..];
    EmplaceSwappedStep(ks, vs, acc, es[n], pieces[n + 1..], kvd);
  }

  /** The entries before position `n` of an ascending map are ascending and all below the `n`-th key. */
  lemma PrefixBelow(ks: Shape, vs: Shape, es: seq<(Value, Value)>, n: nat)
    requires EntriesHaveShapes(es, ks, vs) && KeysAscending(es) && n < |es|
    ensures EntriesHaveShapes(es[..n], ks, vs) && KeysAscending(es[..n])
    ensures HasShape(es[n].0, ks) && HasShape(es[n].1, vs)
    ensures forall i :: 0 <= i < |es[..n]| ==> KeyLess(es[..n][i].0, es[n].0)
  {
  }

  /** One step of `EmplaceSwapped`: a piece whose key exceeds every key present appends its entry. */
  lemma {:induction false} EmplaceSwappedStep(ks: Shape, vs: Shape, acc: seq<(Value, Value)>, e: (Value, Value),
                                              tail: seq<string>, kvd: string)
    requires IsScalar(ks) && IsScalar(vs) && ValidKeyValueDelimiter(kvd)
    requires HasShape(e.0, ks) && HasShape(e.1, vs)
    requires EntriesHaveShapes(acc, ks, vs) && KeysAscending(acc)
    requires forall i :: 0 <= i < |acc| ==> KeyLess(acc[i].0, e.0)
    requires kvd[0] !in ToString(ks, e.0) && kvd[0] !in ToString(vs, e.1)
    ensures EntriesHaveShapes(acc + [e], ks, vs) && KeysAscending(acc + [e])
    ensures EmplacePieces(ks, vs, acc, [SwappedEntryText(ks, vs, e, kvd)] + tail, kvd)
         == EmplacePieces(ks, vs, acc + [e], tail, kvd)
  {
    var key, value := ToString(ks, e.0), ToString(vs, e.1);
    var pieces := [SwappedEntryText(ks, vs, e, kvd)] + tail;
    assert Split(pieces[0], kvd) == [key, value] by {
      assert pieces[0] == key + kvd + value;
      SplitHead(key, kvd, value);
      SplitAvoiding(value, kvd);
    }
    ScalarRoundTrip(ks, e.0);
    ScalarRoundTrip(vs, e.1);
    EmplaceGreatest(ks, acc, e.0, e.1);
    EmplaceKeeps(ks, vs, acc, e.0, e.1);
    assert pieces[1..] == tail;
  }

  /**
   `ConvertableValue<T>::asString` and its map specialisation: a plain field
   is written in tagged form, a map without any tag.
   */
  function AsString(kind: FieldKind, slot: Slot, kvd: string): (text: string)
    requires Fits(kind, slot)
    ensures kind.Plain? ==> text == ToTyped(kind.shape, slot.value)
  {
    match kind
    case Plain(sh) => ToTyped(sh, slot.value)
    case MapOf(ks, vs) => MapAsString(ks, vs, slot.entries, kvd)
  }

  /**
   `ConvertableValue<T>::setValue` and its map specialisation. A plain field
   stores the raw `cast` of the whole text: no tag is stripped or checked, and
   it never fails. A map field adds the entries it reads to those it has.
   */
  function SetValue(kind: FieldKind, slot: Slot, text: string, kvd: string): (r: Result<Slot>)
    requires ValidKind(kind) && Fits(kind, slot) && |kvd| > 0
    ensures r.Ok? ==> Fits(kind, r.value)
    ensures kind.Plain? ==> r == Ok(Single(Cast(kind.shape, text)))
    ensures kind.MapOf? && r.Ok? ==> forall e :: e in slot.entries ==> e in r.value.entries
  {
    match kind
    case Plain(sh) => Ok(Single(Cast(sh, text)))
    case MapOf(ks, vs) =>
      var es :- MapSetValue(ks, vs, slot.entries, text, kvd);
      Ok(Entries(es))
  }

  /**
   A string field does not read back its own text: the stored string keeps the
   tag, `"work"` becomes `"s$work"`.
   */
  lemma {:induction false} StringFieldKeepsTag(s: string, kvd: string)
    requires |kvd| > 0
    ensures SetValue(Plain(Str), Single(SV(s)), AsString(Plain(Str), Single(SV(s)), kvd), kvd)
         == Ok(Single(SV("s$" + s)))
  {
    assert ToTyped(Str, SV(s)) == "s" + "$" + s;
    assert "s" + "$" + s == "s$" + s;
  }

  /**
   An integral, bool or enum field reads its own text as the type's default:
   the text starts with the tag letter, which `stringstream` cannot read and
   which is not `"+"`, giving 0 or false.
   */
  lemma {:induction false} NumberFieldReadsDefault(sh: Shape, v: Value, kvd: string)
    requires sh in {Int, Bool, Enum} && HasShape(v, sh) && |kvd| > 0
    ensures SetValue(Plain(sh), Single(v), AsString(Plain(sh), Single(v), kvd), kvd)
         == Ok(Single(Cast(sh, "")))
    ensures Cast(sh, "") in {IV(0), BV(false), EV(0)}
  {
    var text := AsString(Plain(sh), Single(v), kvd);
    assert text == Tag(sh) + "$" + ToString(sh, v);
    assert text[0] == Tag(sh)[0];
    ParseIntNonNumeric(text);
    ParseIntNonNumeric("");
  }
}

=== FILE: grammar.dfy ===
/**
 The tag grammar of the codec: the short type tags, the four delimiters, the
 rendering of a tag in front of a payload (`typifyValue`), of a tag list
 (`formatType`, `formatContainerTypes`), and the lookup of a tag's full name
 (`tryGetFullType`).
 */
module Grammar {
  import opened Text

  const StringTag := "s"
  const IntegralTag := "i"
  const FloatingTag := "f"
  const MapTag := "m"
  const BoolTag := "b"
  const VectorTag := "v"
  const PairTag := "p"

  /** Separates a tag from its payload, and the tags of a tag list. */
  const TypeDelimiter := "$"
  /** Separates the fields of a record line. */
  const ValueDelimiter := "|"
  /** Separates the elements of a vector payload. */
  const ContainerValuesDelimiter := "^"
  /** Separates a map entry's key from its value on encode, and the entries on decode. */
  const MapValueDelimiter := "#"

  /** The six tags that have a full name. */
  const NamedTags := {StringTag, IntegralTag, FloatingTag, MapTag, BoolTag, VectorTag}

  /** `tryGetFullType`: the full name of a short tag, `"Undefined"` for any other text. */
  function TryGetFullType(shortType: string): (name: string)
    ensures name != "Undefined" <==> shortType in NamedTags
    ensures shortType == PairTag ==> name == "Undefined"
    ensures name in {"String", "Integral", "Float", "Map", "Bool", "Vector", "Undefined"}
    ensures shortType == StringTag ==> name == "String"
    ensures shortType == IntegralTag ==> name == "Integral"
    ensures shortType == FloatingTag ==> name == "Float"
    ensures shortType == MapTag ==> name == "Map"
    ensures shortType == BoolTag ==> name == "Bool"
    ensures shortType == VectorTag ==> name == "Vector"
  {
    if shortType == StringTag then "String"
    else if shortType == IntegralTag then "Integral"
    else if shortType == FloatingTag then "Float"
    else if shortType == MapTag then "Map"
    else if shortType == BoolTag then "Bool"
    else if shortType == VectorTag then "Vector"
    else "Undefined"
  }

  /** Different named tags have different full names, so the name identifies the tag. */
  lemma FullTypeIdentifiesTag(a: string, b: string)
    requires a in NamedTags && b in NamedTags
    ensures TryGetFullType(a) == TryGetFullType(b) <==> a == b
  {
  }

  /** `typifyValue` (both overloads): the tag, the type delimiter, then the payload. */
  function TypifyValue(tag: string, payload: string): (text: string)
    ensures |text| == |tag| + 1 + |payload|
    ensures text[..|tag|] == tag && text[|tag|] == '$' && text[|tag| + 1..] == payload
  {
    tag + TypeDelimiter + payload
  }

  /** A tag and payload free of the type delimiter come back apart from `splitTwoValues`. */
  lemma TypifyValueSplits(tag: string, payload: string)
    requires '$' !in tag && '$' !in payload
    ensures Split(TypifyValue(tag, payload), TypeDelimiter) == [tag, payload]
    ensures SplitTwoValues(TypifyValue(tag, payload), TypeDelimiter) == (tag, payload)
  {
    SplitHead(tag, TypeDelimiter, payload);
    SplitAvoiding(payload, TypeDelimiter);
  }

  /** `formatType`: the tags joined by the type delimiter, with none after the last. */
  function FormatType(tags: seq<string>): (text: string)
    ensures |tags| == 0 ==> text == ""
    ensures |tags| == 1 ==> text == tags[0]
  {
    Join(tags, TypeDelimiter)
  }

  /** A non-empty list of tags free of the type delimiter splits back into itself. */
  lemma FormatTypeSplits(tags: seq<string>)
    requires |tags| >= 1
    requires forall i :: 0 <= i < |tags| ==> '$' !in tags[i]
    ensures Split(FormatType(tags), TypeDelimiter) == tags
  {
    SplitJoin(tags, TypeDelimiter);
  }

  /**
   `formatContainerTypes`: the outer tag and the type delimiter, the inner tags
   joined by the container delimiter, and a closing type delimiter.
   */
  function FormatContainerTypes(tag: string, innerTags: seq<string>): (text: string)
    ensures |innerTags| == 0 ==> text == tag + "$$"
    ensures |text| >= |tag| + 2 && text[|text| - 1] == '$'
  {
    tag + TypeDelimiter + Join(innerTags, ContainerValuesDelimiter) + TypeDelimiter
  }

  /**
   Splitting a container header on the type delimiter yields the outer tag, the
   inner tag list and an empty last part.
   */
  lemma {:induction false} FormatContainerTypesSplits(tag: string, innerTags: seq<string>)
    requires '$' !in tag
    requires forall i :: 0 <= i < |innerTags| ==> '$' !in innerTags[i]
    ensures Split(FormatContainerTypes(tag, innerTags), TypeDelimiter)
         == [tag, Join(innerTags, ContainerValuesDelimiter), ""]
  {
    var inner := Join(innerTags, ContainerValuesDelimiter);
    JoinAvoids(innerTags, ContainerValuesDelimiter, '$');
    SplitBetweenDelimiters(tag, inner, TypeDelimiter);
  }
}

=== FILE: registry.dfy ===
/**
 `ConvertableStruct`: a record's registry of named fields, kept in ascending
 name order as a `std::map` keeps it, its encoding as one line of field
 texts separated by `"|"`, and its decoding, which hands the segments of a
 line to the fields in name order.

 The C++ code registers pointers into the caller's record. Here every entry
 carries the value its field holds, so a registry is the record's state.
 */
module Registry {
  import opened Text
  import opened Grammar
  import opened Errors
  import opened Decimal
  import opened Converters
  import opened Fields

  /** One registered field: its name, its type and the value it currently holds. */
  datatype Entry = Entry(name: string, kind: FieldKind, slot: Slot)

  type Record = seq<Entry>

  predicate NamesAscending(rec: Record)
  {
    forall i, j :: 0 <= i < j < |rec| ==> StrLess(rec[i].name, rec[j].name)
  }

  /** Each field's slot holds a value of the field's type. */
  predicate AllValid(rec: Record)
  {
    forall i :: 0 <= i < |rec| ==> ValidKind(rec[i].kind) && Fits(rec[i].kind, rec[i].slot)
  }

  /** The registry's invariant: names strictly ascending, each slot of its field's type. */
  predicate WellFormed(rec: Record)
  {
    NamesAscending(rec) && AllValid(rec)
  }

  function Names(rec: Record): set<string>
  {
    set i | 0 <= i < |rec| :: rec[i].name
  }

  /** The empty registry of a freshly constructed record. */
  const EmptyRecord: Record := []

  lemma NamesCons(e: Entry, rec: Record)
    ensures Names([e] + rec) == {e.name} + Names(rec)
  {
    var r := [e] + rec;
    forall x | x in Names(r)
      ensures x in {e.name} + Names(rec)
    {
      var i :| 0 <= i < |r| && r[i].name == x;
      if i > 0 {
        assert rec[i - 1].name == x;
      }
    }
    forall x | x in {e.name} + Names(rec)
      ensures x in Names(r)
    {
      if x == e.name {
        assert r[0].name == x;
      } else {
        var i :| 0 <= i < |rec| && rec[i].name == x;
        assert r[i + 1].name == x;
      }
    }
  }

  /** Inserts an entry with a new name at its place in name order. */
  function Insert(rec: Record, e: Entry): (r: Record)
    requires NamesAscending(rec) && e.name !in Names(rec)
    ensures NamesAscending(r) && |r| == |rec| + 1
    ensures forall x :: x in r <==> x in rec || x == e
    ensures Names(r) == Names(rec) + {e.name}
  {
    if |rec| == 0 then
      NamesCons(e, rec);
      assert [e] + rec == [e];
      [e]
    else if StrLess(e.name, rec[0].name) then
      var r := [e] + rec;
      forall j | 1 <= j < |r|
        ensures StrLess(e.name, r[j].name)
      {
        if j > 1 {
          StrLessTransitive(e.name, rec[0].name, r[j].name);
        }
      }
      NamesCons(e, rec);
      r
    else
      assert e.name != rec[0].name;
      StrLessTotal(e.name, rec[0].name);
      assert rec == [rec[0]] + rec[1..];
      NamesCons(rec[0], rec[1..]);
      var tail := Insert(rec[1..], e);
      var r := [rec[0]] + tail;
      forall j | 1 <= j < |r|
        ensures StrLess(rec[0].name, r[j].name)
      {
        assert r[j] in tail;
      }
      NamesCons(rec[0], tail);
      r
  }

  /**
   `pushValue`: registers a field under a name not yet taken. Registering a
   name twice is the redefinition error and leaves the registry as it was.
   */
  function PushValue(rec: Record, name: string, kind: FieldKind, slot: Slot): (r: Result<Record>)
    requires WellFormed(rec) && ValidKind(kind) && Fits(kind, slot)
    ensures r.Err? <==> name in Names(rec)
    ensures r.Err? ==> r.error == TypeRedefinition(name)
    ensures r.Ok? ==> WellFormed(r.value) && |r.value| == |rec| + 1
    ensures r.Ok? ==> forall x :: x in r.value <==> x in rec || x == Entry(name, kind, slot)
  {
    if name in Names(rec) then Err(TypeRedefinition(name))
    else
      var r := Insert(rec, Entry(name, kind, slot));
      assert AllValid(r) by {
        forall i | 0 <= i < |r|
          ensures ValidKind(r[i].kind) && Fits(r[i].kind, r[i].slot)
        {
          assert r[i] in r;
        }
      }
      Ok(r)
  }

  /** Two registries in name order holding the same entries are the same sequence. */
  lemma {:induction false} SameEntriesSameRecord(a: Record, b: Record)
    requires NamesAscending(a) && NamesAscending(b) && |a| == |b|
    requires forall x :: x in a <==> x in b
    ensures a == b
    decreases |a|
  {
    if |a| > 0 {
      assert a[0] in b;
      assert b[0] in a;
      var i :| 0 <= i < |a| && a[i] == b[0];
      var j :| 0 <= j < |b| && b[j] == a[0];
      if i > 0 {
        if j > 0 {
          StrLessAsymmetric(a[0].name, a[i].name);
        } else {
          StrLessIrreflexive(a[0].name);
        }
      }
      assert a[0] == b[0];
      forall x
        ensures x in a[1..] <==> x in b[1..]
      {
        if x in a[1..] {
          var k :| 0 <= k < |a[1..]| && a[1..][k] == x;
          assert StrLess(a[0].name, x.name);
          StrLessIrreflexive(x.name);
          assert x in b;
          assert x != b[0];
          var m :| 0 <= m < |b| && b[m] == x;
          assert b[1..][m - 1] == x;
        }
        if x in b[1..] {
          var k :| 0 <= k < |b[1..]| && b[1..][k] == x;
          assert StrLess(b[0].name, x.name);
          StrLessIrreflexive(x.name);
          assert x in a;
          assert x != a[0];
          var m :| 0 <= m < |a| && a[m] == x;
          assert a[1..][m - 1] == x;
        }
      }
      SameEntriesSameRecord(a[1..], b[1..]);
      assert a == [a[0]] + a[1..] && b == [b[0]] + b[1..];
    }
  }

  /** The order of registration does not matter: the registry is always in name order. */
  lemma {:induction false} PushOrderIrrelevant(rec: Record, n1: string, k1: FieldKind, s1: Slot,
                                               n2: string, k2: FieldKind, s2: Slot)
    requires WellFormed(rec) && ValidKind(k1) && Fits(k1, s1) && ValidKind(k2) && Fits(k2, s2)
    requires PushValue(rec, n1, k1, s1).Ok? && PushValue(rec, n2, k2, s2).Ok?
    requires PushValue(PushValue(rec, n1, k1, s1).value, n2, k2, s2).Ok?
    ensures PushValue(PushValue(rec, n2, k2, s2).value, n1, k1, s1).Ok?
    ensures PushValue(PushValue(rec, n1, k1, s1).value, n2, k2, s2)
         == PushValue(PushValue(rec, n2, k2, s2).value, n1, k1, s1)
  {
    var a := PushValue(rec, n1, k1, s1).value;
    var b := PushValue(rec, n2, k2, s2).value;
    assert n1 != n2 by {
      assert Entry(n1, k1, s1) in a;
    }
    assert n1 !in Names(b);
    var ab := PushValue(a, n2, k2, s2).value;
    var ba := PushValue(b, n1, k1, s1).value;
    SameEntriesSameRecord(ab, ba);
  }

  /** The texts of the fields, in name order. */
  function FieldTexts(rec: Record, kvd: string): (texts: seq<string>)
    requires AllValid(rec)
    ensures |texts| == |rec|
  {
    seq(|rec|, i requires 0 <= i < |rec| => AsString(rec[i].kind, rec[i].slot, kvd))
  }

  /** `convertObjectToLineSave`: the field texts in name order, separated by the value delimiter. */
  function Encode(rec: Record, kvd: string): (line: string)
    requires AllValid(rec)
    ensures |rec| == 0 ==> line == ""
    ensures |rec| == 1 ==> line == AsString(rec[0].kind, rec[0].slot, kvd)
  {
    Join(FieldTexts(rec, kvd), ValueDelimiter)
  }

  /**
   `convertObjectToLineSave` as written: one pass over the fields, appending
   the delimiter after each field while the countdown of remaining fields has
   not reached zero.
   */
  method ConvertObjectToLineSave(rec: Record, kvd: string) returns (line: string)
    requires AllValid(rec)
    ensures line == Encode(rec, kvd)
  {
    var texts := FieldTexts(rec, kvd);
    line := "";
    var keysAmount := |rec|;
    var i := 0;
    while i < |rec|
      invariant 0 <= i <= |rec| && keysAmount == |rec| - i
      invariant line == if i == 0 then "" else Join(texts[..i], ValueDelimiter) + (if i < |rec| then ValueDelimiter else "")
    {
      JoinPrefixStep(texts, i, ValueDelimiter);
      line := line + texts[i];
      keysAmount := keysAmount - 1;
      if keysAmount != 0 {
        line := line + ValueDelimiter;
      }
      i := i + 1;
    }
    assert texts[..i] == texts;
  }

  /** When no field text holds `"|"`, splitting the line on `"|"` gives the field texts back. */
  lemma {:induction false} EncodeSplits(rec: Record, kvd: string)
    requires AllValid(rec)
    requires |rec| >= 1
    requires forall i :: 0 <= i < |rec| ==> '|' !in AsString(rec[i].kind, rec[i].slot, kvd)
    ensures Split(Encode(rec, kvd), ValueDelimiter) == FieldTexts(rec, kvd)
  {
    SplitJoin(FieldTexts(rec, kvd), ValueDelimiter);
  }

  /**
   The loop of `convertLineSaveToObject`: the fields in name order each take
   the next segment. A field with no segment left is the C++ code's `back()` on
   an empty vector, an error here; segments beyond the last field are ignored.
   */
  function ApplySegments(rec: Record, segments: seq<string>, kvd: string): (r: Result<Record>)
    requires AllValid(rec)
    requires |kvd| > 0
    ensures |segments| < |rec| ==> r.Err?
    ensures r.Ok? ==> |r.value| == |rec| <= |segments|
    decreases |rec|
  {
    if |rec| == 0 then Ok([])
    else if |segments| == 0 then Err(MissingSegment(rec[0].name))
    else
      var slot :- SetValue(rec[0].kind, rec[0].slot, segments[0], kvd);
      var rest :- ApplySegments(rec[1..], segments[1..], kvd);
      Ok([Entry(rec[0].name, rec[0].kind, slot)] + rest)
  }

  /**
   Field by field, a successful decoding gives the `i`-th field the value its
   wrapper reads from the `i`-th segment, and keeps its name and type.
   */
  lemma {:induction false} ApplySegmentsFieldwise(rec: Record, segments: seq<string>, kvd: string)
    requires AllValid(rec) && |kvd| > 0
    requires ApplySegments(rec, segments, kvd).Ok?
    ensures forall i :: 0 <= i < |rec| ==>
      ApplySegments(rec, segments, kvd).value[i].name == rec[i].name &&
      ApplySegments(rec, segments, kvd).value[i].kind == rec[i].kind &&
      SetValue(rec[i].kind, rec[i].slot, segments[i], kvd) == Ok(ApplySegments(rec, segments, kvd).value[i].slot)
    decreases |rec|
  {
    if |rec| > 0 {
      var r := ApplySegments(rec, segments, kvd).value;
      var rest := ApplySegments(rec[1..], segments[1..], kvd);
      ApplySegmentsFieldwise(rec[1..], segments[1..], kvd);
      forall i | 1 <= i < |rec|
        ensures r[i] == rest.value[i - 1]
        ensures rec[i] == rec[1..][i - 1] && segments[i] == segments[1..][i - 1]
      {
      }
    }
  }

  /** Decoding keeps the registry's names, types and invariant. */
  lemma {:induction false} ApplySegmentsWellFormed(rec: Record, segments: seq<string>, kvd: string)
    requires WellFormed(rec) && |kvd| > 0
    requires ApplySegments(rec, segments, kvd).Ok?
    ensures WellFormed(ApplySegments(rec, segments, kvd).value)
    ensures Names(ApplySegments(rec, segments, kvd).value) == Names(rec)
  {
    var r := ApplySegments(rec, segments, kvd).value;
    ApplySegmentsFieldwise(rec, segments, kvd);
    forall i | 0 <= i < |r|
      ensures ValidKind(r[i].kind) && Fits(r[i].kind, r[i].slot)
    {
      assert SetValue(rec[i].kind, rec[i].slot, segments[i], kvd) == Ok(r[i].slot);
    }
    assert Names(r) == Names(rec) by {
      forall x | x in Names(r)
        ensures x in Names(rec)
      {
        var i :| 0 <= i < |r| && r[i].name == x;
        assert rec[i].name == x;
      }
      forall x | x in Names(rec)
        ensures x in Names(r)
      {
        var i :| 0 <= i < |rec| && rec[i].name == x;
        assert r[i].name == x;
      }
    }
  }

  /** Segments after the last field's have no effect. */
  lemma {:induction false} ApplySegmentsIgnoresExtra(rec: Record, segments: seq<string>, extra: seq<string>,
                                                     kvd: string)
    requires AllValid(rec)
    requires |kvd| > 0 && |segments| >= |rec|
    ensures ApplySegments(rec, segments + extra, kvd) == ApplySegments(rec, segments, kvd)
    decreases |rec|
  {
    if |rec| > 0 {
      assert (segments + extra)[0] == segments[0];
      assert (segments + extra)[1..] == segments[1..] + extra;
      ApplySegmentsIgnoresExtra(rec[1..], segments[1..], extra, kvd);
    }
  }

  /** `convertLineSaveToObject`: the line split on the value delimiter, applied to the fields in name order. */
  function Decode(rec: Record, line: string, kvd: string): (r: Result<Record>)
    requires AllValid(rec)
    requires |kvd| > 0
    ensures |Split(line, ValueDelimiter)| < |rec| ==> r.Err?
    ensures r.Ok? ==> |r.value| == |rec|
  {
    ApplySegments(rec, Split(line, ValueDelimiter), kvd)
  }

  /** Field by field, a successful decoding gives the `i`-th field what its wrapper reads from the `i`-th segment. */
  lemma DecodeFieldwise(rec: Record, line: string, kvd: string)
    requires AllValid(rec) && |kvd| > 0
    requires Decode(rec, line, kvd).Ok?
    ensures |rec| <= |Split(line, ValueDelimiter)|
    ensures forall i :: 0 <= i < |rec| ==>
      Decode(rec, line, kvd).value[i].name == rec[i].name &&
      SetValue(rec[i].kind, rec[i].slot, Split(line, ValueDelimiter)[i], kvd) == Ok(Decode(rec, line, kvd).value[i].slot)
  {
    ApplySegmentsFieldwise(rec, Split(line, ValueDelimiter), kvd);
  }

  /** Too few segments fail at the first field without one, unless an earlier map field fails first. */
  lemma {:induction false} MissingSegmentWhenShort(rec: Record, segments: seq<string>, kvd: string)
    requires AllValid(rec)
    requires |kvd| > 0 && |segments| < |rec|
    ensures ApplySegments(rec, segments, kvd).Err?
    ensures (forall i :: 0 <= i < |rec| ==> rec[i].kind.Plain?) ==>
      ApplySegments(rec, segments, kvd) == Err(MissingSegment(rec[|segments|].name))
    decreases |segments|
  {
    if |segments| > 0 {
      MissingSegmentWhenShort(rec[1..], segments[1..], kvd);
      if forall i :: 0 <= i < |rec| ==> rec[i].kind.Plain? {
        assert rec[0].kind.Plain?;
        assert forall i :: 0 <= i < |rec[1..]| ==> rec[1..][i] == rec[i + 1];
      }
    }
  }

  function Reverse<T>(s: seq<T>): (r: seq<T>)
    ensures |r| == |s|
    ensures forall i :: 0 <= i < |s| ==> r[i] == s[|s| - 1 - i]
  {
    if |s| == 0 then [] else Reverse(s[1..]) + [s[0]]
  }

  /** What is left to decode after some fields: the entries done so far prefixed to the rest. */
  function Prefixed(done: Record, r: Result<Record>): Result<Record>
  {
    match r
    case Ok(rest) => Ok(done + rest)
    case Err(e) => Err(e)
  }

  lemma PrefixedEmpty(r: Result<Record>)
    ensures Prefixed([], r) == r
  {
    if r.Ok? {
      assert [] + r.value == r.value;
    }
  }

  /**
   `convertLineSaveToObject` as written: split, reverse, then for each field
   in name order take the last segment with `back()` and drop it with
   `pop_back()`.
   */
  method ConvertLineSaveToObject(rec: Record, line: string, kvd: string) returns (r: Result<Record>)
    requires AllValid(rec)
    requires |kvd| > 0
    ensures r == Decode(rec, line, kvd)
  {
    var segments := SplitString(line, ValueDelimiter);
    var stack := Reverse(segments);
    var done: Record := [];
    var i := 0;
    assert rec[0..] == rec && segments[0..] == segments;
    PrefixedEmpty(ApplySegments(rec, segments, kvd));
    while i < |rec|
      invariant 0 <= i <= |rec| && i <= |segments|
      invariant stack == Reverse(segments[i..])
      invariant Decode(rec, line, kvd) == Prefixed(done, ApplySegments(rec[i..], segments[i..], kvd))
    {
      if |stack| == 0 {
        ApplyMissing(rec, segments, kvd, i);
        return Err(MissingSegment(rec[i].name));
      }
      ReverseUnfold(segments, i);
      var segment := stack[|stack| - 1];
      stack := stack[..|stack| - 1];
      ApplyStep(rec, segments, kvd, i);
      var slot :- SetValue(rec[i].kind, rec[i].slot, segment, kvd);
      PrefixedAppend(done, Entry(rec[i].name, rec[i].kind, slot), ApplySegments(rec[i + 1..], segments[i + 1..], kvd));
      done := done + [Entry(rec[i].name, rec[i].kind, slot)];
      i := i + 1;
    }
    assert rec[i..] == [];
    assert done + [] == done;
    return Ok(done);
  }

  /** The top of the reversed stack is the next segment; popping it leaves the rest reversed. */
  lemma ReverseUnfold(segments: seq<string>, i: nat)
    requires i < |segments|
    ensures Reverse(segments[i..]) == Reverse(segments[i + 1..]) + [segments[i]]
  {
    assert segments[i..][1..] == segments[i + 1..];
  }

  /** The field at `i` has no segment left. */
  lemma ApplyMissing(rec: Record, segments: seq<string>, kvd: string, i: nat)
    requires AllValid(rec) && |kvd| > 0 && i < |rec| && i == |segments|
    ensures ApplySegments(rec[i..], segments[i..], kvd) == Err(MissingSegment(rec[i].name))
  {
    assert segments[i..] == [];
  }

  /** One field of the decoding loop: its segment is applied, then the fields after it. */
  lemma ApplyStep(rec: Record, segments: seq<string>, kvd: string, i: nat)
    requires AllValid(rec) && |kvd| > 0 && i < |rec| && i < |segments|
    ensures AllValid(rec[i + 1..])
    ensures ApplySegments(rec[i..], segments[i..], kvd)
         == match SetValue(rec[i].kind, rec[i].slot, segments[i], kvd)
            case Err(e) => Err(e)
            case Ok(slot) =>
              Prefixed([Entry(rec[i].name, rec[i].kind, slot)], ApplySegments(rec[i + 1..], segments[i + 1..], kvd))
  {
    assert rec[i..][0] == rec[i] && rec[i..][1..] == rec[i + 1..];
    assert segments[i..][0] == segments[i] && segments[i..][1..] == segments[i + 1..];
  }

  lemma PrefixedAppend(done: Record, e: Entry, r: Result<Record>)
    ensures Prefixed(done, Prefixed([e], r)) == Prefixed(done + [e], r)
  {
    if r.Ok? {
      assert done + ([e] + r.value) == (done + [e]) + r.value;
    }
  }

  /** A record of `type` (string) and `value` (integral), the record of the repository's example program. */
  function ExampleRecord(typeValue: string, value: int): Record
  {
    [Entry("type", Plain(Str), Single(SV(typeValue)))] + [Entry("value", Plain(Int), Single(IV(value)))]
  }

  /** Registering `value` before `type` still places `type` first: fields are kept in name order. */
  lemma ExampleRegistration()
    ensures PushValue(EmptyRecord, "value", Plain(Int), Single(IV(10))).Ok?
    ensures PushValue(PushValue(EmptyRecord, "value", Plain(Int), Single(IV(10))).value,
                      "type", Plain(Str), Single(SV("work"))) == Ok(ExampleRecord("work", 10))
  {
    var r1 := PushValue(EmptyRecord, "value", Plain(Int), Single(IV(10))).value;
    assert r1 == [Entry("value", Plain(Int), Single(IV(10)))];
    assert "type"[0] < "value"[0];
    var r2 := PushValue(r1, "type", Plain(Str), Single(SV("work"))).value;
    SameEntriesSameRecord(r2, ExampleRecord("work", 10));
  }

  /** The example record's line: the tagged string, the value delimiter, the tagged integer. */
  lemma ExampleRecordEncode(t: string, n: int, kvd: string)
    ensures Encode(ExampleRecord(t, n), kvd) == "s$" + t + "|" + "i$" + IntToString(n)
  {
    var texts := FieldTexts(ExampleRecord(t, n), kvd);
    assert texts[0] == "s$" + t;
    assert texts[1] == "i$" + IntToString(n);
    JoinCons(texts[0], texts[1..], ValueDelimiter);
    assert texts == [texts[0]] + texts[1..];
  }

  /** The example record holding `"work"` and 10 encodes to `"s$work|i$10"`. */
  lemma ExampleEncode(kvd: string)
    ensures Encode(ExampleRecord("work", 10), kvd) == "s$work|i$10"
  {
    ExampleRecordEncode("work", 10, kvd);
    assert IntToString(10) == "10" by {
      assert NatToString(10) == NatToString(1) + [DigitChar(0)];
      assert DigitChar(1) == '1' && DigitChar(0) == '0';
    }
  }

  /** Decoding a two-segment line hands the first segment to `type` and the second to `value`. */
  lemma ExampleRecordDecode(t: string, n: int, a: string, b: string, kvd: string)
    requires '|' !in a && '|' !in b && |kvd| > 0
    ensures Decode(ExampleRecord(t, n), a + "|" + b, kvd) == Ok(ExampleRecord(a, ParseInt(b)))
  {
    assert Split(a + "|" + b, ValueDelimiter) == [a] + [b] by {
      SplitHead(a, ValueDelimiter, b);
      SplitAvoiding(b, ValueDelimiter);
    }
    ExampleRecordApply(t, n, a, b, kvd);
  }

  /** The example record's fields take the two segments in order. */
  lemma ExampleRecordApply(t: string, n: int, a: string, b: string, kvd: string)
    requires |kvd| > 0
    ensures ApplySegments(ExampleRecord(t, n), [a] + [b], kvd) == Ok(ExampleRecord(a, ParseInt(b)))
  {
    var e1 := Entry("type", Plain(Str), Single(SV(t)));
    var e2 := Entry("value", Plain(Int), Single(IV(n)));
    ApplyPlainPair(e1, e2, a, b, kvd);
    assert Cast(Str, a) == SV(a) && Cast(Int, b) == IV(ParseInt(b));
  }

  /** Two plain fields take the raw casts of two segments, in order. */
  lemma ApplyPlainPair(e1: Entry, e2: Entry, a: string, b: string, kvd: string)
    requires e1.kind.Plain? && e2.kind.Plain? && AllValid([e1] + [e2]) && |kvd| > 0
    ensures ApplySegments([e1] + [e2], [a] + [b], kvd)
         == Ok([Entry(e1.name, e1.kind, Single(Cast(e1.kind.shape, a)))] + [Entry(e2.name, e2.kind, Single(Cast(e2.kind.shape, b)))])
  {
    var d1 := Entry(e1.name, e1.kind, Single(Cast(e1.kind.shape, a)));
    var d2 := Entry(e2.name, e2.kind, Single(Cast(e2.kind.shape, b)));
    ApplyPlainHead(e1, [e2], a, [b], kvd);
    ApplyPlainLast(e2, b, kvd);
    assert Prefixed([d1], Ok([d2])) == Ok([d1] + [d2]);
  }

  /** A single plain field takes the raw cast of the single segment. */
  lemma ApplyPlainLast(e: Entry, segment: string, kvd: string)
    requires e.kind.Plain? && AllValid([e]) && |kvd| > 0
    ensures ApplySegments([e], [segment], kvd) == Ok([Entry(e.name, e.kind, Single(Cast(e.kind.shape, segment)))])
  {
    var d := Entry(e.name, e.kind, Single(Cast(e.kind.shape, segment)));
    ApplyPlainHead(e, [], segment, [], kvd);
    assert [e] + [] == [e] && [segment] + [] == [segment] && [d] + [] == [d];
  }

  /** A plain field at the head takes the first segment's raw cast; the other fields take the rest. */
  lemma ApplyPlainHead(e: Entry, rest: Record, segment: string, segments: seq<string>, kvd: string)
    requires e.kind.Plain? && AllValid([e] + rest) && |kvd| > 0
    ensures AllValid(rest)
    ensures ApplySegments([e] + rest, [segment] + segments, kvd)
         == Prefixed([Entry(e.name, e.kind, Single(Cast(e.kind.shape, segment)))], ApplySegments(rest, segments, kvd))
  {
    assert ([e] + rest)[0] == e && ([e] + rest)[1..] == rest;
    assert ([segment] + segments)[0] == segment && ([segment] + segments)[1..] == segments;
    assert forall i :: 0 <= i < |rest| ==> rest[i] == ([e] + rest)[i + 1];
  }

  /**
   Decoding `"i$20|s$cat"` hands `"i$20"` to `type` and `"s$cat"` to `value`:
   the string keeps the whole segment and the integer reads 0.
   */
  lemma ExampleDecode(kvd: string)
    requires |kvd| > 0
    ensures Decode(ExampleRecord("work", 10), "i$20|s$cat", kvd) == Ok(ExampleRecord("i$20", 0))
  {
    assert "i$20|s$cat" == "i$20" + "|" + "s$cat";
    ExampleRecordDecode("work", 10, "i$20", "s$cat", kvd);
    ParseIntNonNumeric("s$cat");
  }

  /**
   For a record of plain fields whose texts hold no `"|"`, decoding its own
   line succeeds and each field stores the raw cast of its tagged text.
   */
  lemma {:induction false} PlainRecordRereads(rec: Record, kvd: string)
    requires AllValid(rec) && forall i :: 0 <= i < |rec| ==> rec[i].kind.Plain?
    requires |rec| >= 1 && |kvd| > 0
    requires forall i :: 0 <= i < |rec| ==> '|' !in AsString(rec[i].kind, rec[i].slot, kvd)
    ensures Decode(rec, Encode(rec, kvd), kvd).Ok?
    ensures forall i :: 0 <= i < |rec| ==>
      Decode(rec, Encode(rec, kvd), kvd).value[i].slot
        == Single(Cast(rec[i].kind.shape, ToTyped(rec[i].kind.shape, rec[i].slot.value)))
  {
    EncodeSplits(rec, kvd);
    PlainApplies(rec, FieldTexts(rec, kvd), kvd);
    DecodeFieldwise(rec, Encode(rec, kvd), kvd);
  }

  /** Plain fields never fail to read a segment. */
  lemma {:induction false} PlainApplies(rec: Record, segments: seq<string>, kvd: string)
    requires AllValid(rec) && forall i :: 0 <= i < |rec| ==> rec[i].kind.Plain?
    requires |kvd| > 0 && |segments| >= |rec|
    ensures ApplySegments(rec, segments, kvd).Ok?
    decreases |rec|
  {
    if |rec| > 0 {
      PlainApplies(rec[1..], segments[1..], kvd);
    }
  }
}

=== FILE: text.dfy ===
/**
 Text helpers of the codec: substring search in the manner of `std::string::find`,
 the delimiter split `splitString`, its two-part variant `splitTwoValues`, the
 join that every encoder performs by hand, and the `std::string` ordering that
 `std::map` uses for its keys.
 */
module Text {

  datatype Option<T> = None | Some(value: T)

  /** `d` occurs in `s` starting at index `k`. */
  predicate OccursAt(s: string, d: string, k: nat)
  {
    k + |d| <= |s| && s[k..k + |d|] == d
  }

  /** `d` occurs somewhere in `s`. */
  predicate Contains(s: string, d: string)
  {
    exists k :: 0 <= k <= |s| && OccursAt(s, d, k)
  }

  /** `s.find(d, start)`: the first occurrence of `d` at or after `start`; `None` is `npos`. */
  function FindFrom(s: string, d: string, start: nat): (r: Option<nat>)
    ensures r.Some? ==> start <= r.value && r.value + |d| <= |s|
    decreases |s| - start
  {
    if start + |d| > |s| then None
    else if s[start..start + |d|] == d then Some(start)
    else FindFrom(s, d, start + 1)
  }

  /** `FindFrom` finds an occurrence, and the first one at or after `start`; `None` means there is none. */
  lemma {:induction false} FindFromFirst(s: string, d: string, start: nat)
    ensures FindFrom(s, d, start).Some? ==> OccursAt(s, d, FindFrom(s, d, start).value)
    ensures FindFrom(s, d, start).Some? ==>
      forall k: nat :: start <= k < FindFrom(s, d, start).value ==> !OccursAt(s, d, k)
    ensures FindFrom(s, d, start).None? ==> forall k: nat :: start <= k ==> !OccursAt(s, d, k)
    decreases |s| - start
  {
    if start + |d| > |s| {
    } else if s[start..start + |d|] == d {
    } else {
      FindFromFirst(s, d, start + 1);
    }
  }

  /** Shifts a position found in a suffix back to a position in the whole string. */
  function ShiftBy(r: Option<nat>, offset: nat): Option<nat>
  {
    match r
    case None => None
    case Some(k) => Some(k + offset)
  }

  /**
   `splitString`: the parts of `s` between the occurrences of `d`, found left to
   right without overlap. Leading and trailing empty parts are kept.
   */
  function Split(s: string, d: string): (parts: seq<string>)
    requires |d| > 0
    ensures |parts| >= 1
    decreases |s|
  {
    match FindFrom(s, d, 0)
    case None => [s]
    case Some(k) => [s[..k]] + Split(s[k + |d|..], d)
  }

  /** The parts separated by `d`, with no leading or trailing `d`; `""` for no parts. */
  function Join(parts: seq<string>, d: string): (r: string)
    ensures |parts| == 0 ==> r == ""
  {
    if |parts| == 0 then ""
    else if |parts| == 1 then parts[0]
    else parts[0] + d + Join(parts[1..], d)
  }

  /**
   `splitTwoValues`: the two parts of `s` when the split yields exactly two,
   and `("", "")` otherwise. The first part ends where `find` first meets `d`,
   which fixes the pair even when `d` could overlap itself.
   */
  function SplitTwoValues(s: string, d: string): (pair: (string, string))
    requires |d| > 0
    ensures |Split(s, d)| == 2 ==> s == pair.0 + d + pair.1 && FindFrom(s, d, 0) == Some(|pair.0|)
    ensures |Split(s, d)| == 2 ==> !Contains(pair.0, d) && !Contains(pair.1, d)
    ensures |Split(s, d)| != 2 ==> pair == ("", "")
  {
    var parts := Split(s, d);
    JoinSplit(s, d);
    SplitPartsAvoidDelimiter(s, d);
    if |parts| == 2 then (parts[0], parts[1]) else ("", "")
  }

  /** With an overlapping delimiter the first occurrence wins: `"aaa"` on `"aa"` gives `("", "a")`. */
  lemma SplitTwoValuesOverlap()
    ensures SplitTwoValues("aaa", "aa") == ("", "a")
  {
    var s, d := "aaa", "aa";
    assert FindFrom(s, d, 0) == Some(0) by {
      assert s[0..2] == d;
    }
    assert FindFrom(s[2..], d, 0) == None;
    assert Split(s, d) == [""] + ["a"];
  }

  /** The loop of `splitString`, searching the whole string from a moving start. */
  method SplitString(str: string, delimiter: string) returns (result: seq<string>)
    requires |delimiter| > 0
    ensures result == Split(str, delimiter)
  {
    result := [];
    var start: nat := 0;
    var end := FindFrom(str, delimiter, 0);
    assert str[start..] == str;
    while end.Some?
      invariant start <= |str|
      invariant end == FindFrom(str, delimiter, start)
      invariant result + Split(str[start..], delimiter) == Split(str, delimiter)
      decreases |str| - start
    {
      var e := end.value;
      SplitFromFound(str, delimiter, start, e);
      var head, rest := str[start..e], Split(str[e + |delimiter|..], delimiter);
      assert (result + [head]) + rest == result + ([head] + rest);
      assert result + [head] + rest == Split(str, delimiter);
      result := result + [head];
      start := e + |delimiter|;
      end := FindFrom(str, delimiter, start);
    }
    SplitFromLast(str, delimiter, start);
    result := result + [str[start..]];
  }

  /** A round of the `splitString` loop that finds the delimiter at `e`. */
  lemma SplitFromFound(s: string, d: string, start: nat, e: nat)
    requires |d| > 0 && start <= |s|
    requires FindFrom(s, d, start) == Some(e)
    ensures e + |d| <= |s|
    ensures Split(s[start..], d) == [s[start..e]] + Split(s[e + |d|..], d)
  {
    var t := s[start..];
    FindFromSuffix(s, d, start, 0);
    var k: nat := e - start;
    assert FindFrom(t, d, 0) == Some(k);
    SplitUnfold(t, d, k);
    assert t[..k] == s[start..e];
    assert t[k + |d|..] == s[e + |d|..];
  }

  /** The split at a found delimiter: the part before it, then the split of the rest. */
  lemma SplitUnfold(t: string, d: string, k: nat)
    requires |d| > 0
    requires FindFrom(t, d, 0) == Some(k)
    ensures Split(t, d) == [t[..k]] + Split(t[k + |d|..], d)
  {
  }

  /** The last round of the `splitString` loop, which finds no delimiter. */
  lemma SplitFromLast(s: string, d: string, start: nat)
    requires |d| > 0 && start <= |s|
    requires FindFrom(s, d, start).None?
    ensures Split(s[start..], d) == [s[start..]]
  {
    FindFromSuffix(s, d, start, 0);
  }

  /** Searching a suffix is searching the whole string from the suffix's start. */
  lemma {:induction false} FindFromSuffix(s: string, d: string, start: nat, j: nat)
    requires start <= |s|
    ensures FindFrom(s, d, start + j) == ShiftBy(FindFrom(s[start..], d, j), start)
    decreases |s| - start - j
  {
    var t := s[start..];
    if start + j + |d| > |s| {
    } else {
      assert t[j..j + |d|] == s[start + j..start + j + |d|];
      if s[start + j..start + j + |d|] != d {
        FindFromSuffix(s, d, start, j + 1);
      }
    }
  }

  /** Without an occurrence of `d` the split is the whole input, and only then. */
  lemma SplitSingleIff(s: string, d: string)
    requires |d| > 0
    ensures Split(s, d) == [s] <==> !Contains(s, d)
    ensures |Split(s, d)| == 1 <==> !Contains(s, d)
  {
    FindFromFirst(s, d, 0);
    match FindFrom(s, d, 0)
    case None =>
      assert forall k: nat :: !OccursAt(s, d, k);
    case Some(k) =>
      assert OccursAt(s, d, k);
      assert |Split(s, d)| >= 2;
  }

  /** Joining the parts of a split with the same delimiter rebuilds the input. */
  lemma {:induction false} JoinSplit(s: string, d: string)
    requires |d| > 0
    ensures Join(Split(s, d), d) == s
    decreases |s|
  {
    FindFromFirst(s, d, 0);
    match FindFrom(s, d, 0)
    case None =>
    case Some(k) =>
      var tail := s[k + |d|..];
      assert s == s[..k] + d + tail by {
        assert s[k..k + |d|] == d;
        assert s == s[..k] + s[k..k + |d|] + tail;
      }
      JoinSplit(tail, d);
      SplitUnfold(s, d, k);
      JoinCons(s[..k], Split(tail, d), d);
  }

  /** No part of a split contains the delimiter. */
  lemma {:induction false} SplitPartsAvoidDelimiter(s: string, d: string)
    requires |d| > 0
    ensures forall i :: 0 <= i < |Split(s, d)| ==> !Contains(Split(s, d)[i], d)
    decreases |s|
  {
    var parts := Split(s, d);
    FindFromFirst(s, d, 0);
    match FindFrom(s, d, 0)
    case None =>
      assert parts == [s];
      assert forall k: nat :: !OccursAt(s, d, k);
    case Some(k) =>
      SplitPartsAvoidDelimiter(s[k + |d|..], d);
      var head := s[..k];
      assert !Contains(head, d) by {
        forall j | 0 <= j <= |head|
          ensures !OccursAt(head, d, j)
        {
          OccursInPrefix(s, d, k, j);
        }
      }
      SplitUnfold(s, d, k);
      forall i | 0 <= i < |parts|
        ensures !Contains(parts[i], d)
      {
        if i > 0 {
          assert parts[i] == Split(s[k + |d|..], d)[i - 1];
        }
      }
  }

  /** An occurrence in a prefix is an occurrence in the whole. */
  lemma OccursInPrefix(s: string, d: string, k: nat, j: nat)
    requires k <= |s|
    ensures OccursAt(s[..k], d, j) ==> OccursAt(s, d, j)
  {
    if j + |d| <= k {
      assert s[..k][j..j + |d|] == s[j..j + |d|];
    }
  }

  /** The two-part join unfolds into its head, the delimiter and the joined rest. */
  lemma JoinCons(a: string, rest: seq<string>, d: string)
    requires |rest| >= 1
    ensures Join([a] + rest, d) == a + d + Join(rest, d)
  {
    assert ([a] + rest)[1..] == rest;
  }

  /** A join starts with the first part and ends with the last. */
  lemma {:induction false} JoinEnds(parts: seq<string>, d: string)
    requires |parts| >= 1
    ensures parts[0] <= Join(parts, d)
    ensures |parts[|parts| - 1]| <= |Join(parts, d)|
    ensures Join(parts, d)[|Join(parts, d)| - |parts[|parts| - 1]|..] == parts[|parts| - 1]
    decreases |parts|
  {
    if |parts| > 1 {
      var rest := Join(parts[1..], d);
      JoinEnds(parts[1..], d);
      assert Join(parts, d) == parts[0] + d + rest;
      assert parts[|parts| - 1] == parts[1..][|parts[1..]| - 1];
    }
  }

  /** Joining a list with one more part appends the delimiter and that part. */
  lemma {:induction false} JoinSnoc(parts: seq<string>, p: string, d: string)
    requires |parts| >= 1
    ensures Join(parts + [p], d) == Join(parts, d) + d + p
    decreases |parts|
  {
    if |parts| == 1 {
      assert parts + [p] == [parts[0]] + [p];
      JoinCons(parts[0], [p], d);
    } else {
      assert parts + [p] == [parts[0]] + (parts[1..] + [p]);
      JoinCons(parts[0], parts[1..] + [p], d);
      JoinSnoc(parts[1..], p, d);
      JoinCons(parts[0], parts[1..], d);
      assert [parts[0]] + parts[1..] == parts;
    }
  }

  /** Joining one more element of a prefix appends the delimiter and the element. */
  lemma JoinPrefixStep(parts: seq<string>, i: nat, d: string)
    requires i < |parts|
    ensures Join(parts[..i + 1], d) == if i == 0 then parts[0] else Join(parts[..i], d) + d + parts[i]
  {
    assert parts[..i] + [parts[i]] == parts[..i + 1];
    if i > 0 {
      JoinSnoc(parts[..i], parts[i], d);
    }
  }

  /** For a one-character delimiter, containing it is containing its character. */
  lemma ContainsChar(s: string, d: string)
    requires |d| == 1
    ensures Contains(s, d) <==> d[0] in s
  {
    if d[0] in s {
      var k :| 0 <= k < |s| && s[k] == d[0];
      assert s[k..k + 1] == d;
      assert OccursAt(s, d, k);
    }
    if Contains(s, d) {
      var k :| 0 <= k <= |s| && OccursAt(s, d, k);
      assert s[k] == s[k..k + 1][0];
    }
  }

  /**
   With a one-character delimiter, the first part of a split is everything
   before the first delimiter.
   */
  lemma SplitHead(a: string, d: string, b: string)
    requires |d| == 1 && d[0] !in a
    ensures Split(a + d + b, d) == [a] + Split(b, d)
  {
    var s := a + d + b;
    assert s[|a|..|a| + 1] == d;
    assert OccursAt(s, d, |a|);
    forall k: nat | k < |a|
      ensures !OccursAt(s, d, k)
    {
    }
    var f := FindFrom(s, d, 0);
    FindFromFirst(s, d, 0);
    assert f == Some(|a|);
    assert s[..|a|] == a;
    assert s[|a| + 1..] == b;
  }

  /** Without the delimiter's character the split is the whole input. */
  lemma SplitAvoiding(s: string, d: string)
    requires |d| == 1 && d[0] !in s
    ensures Split(s, d) == [s]
  {
    ContainsChar(s, d);
    SplitSingleIff(s, d);
  }

  /** When the first part starts with `key` and then `e`, the first `e`-piece of the joined parts is `key`. */
  lemma SplitFirstOfJoin(parts: seq<string>, d: string, e: string, key: string, after: string)
    requires |parts| >= 1 && |e| == 1 && e[0] !in key && parts[0] == key + e + after
    ensures Split(Join(parts, d), e)[0] == key
  {
    var rest := if |parts| == 1 then after else after + d + Join(parts[1..], d);
    assert Join(parts, d) == key + e + rest;
    SplitHead(key, e, rest);
  }

  /** Two delimiter-free texts, each followed by the delimiter, split into the two and an empty last part. */
  lemma SplitBetweenDelimiters(a: string, b: string, d: string)
    requires |d| == 1 && d[0] !in a && d[0] !in b
    ensures Split(a + d + b + d, d) == [a, b, ""]
  {
    assert Split(b + d, d) == [b, ""] by {
      assert b + d == b + d + "";
      SplitHead(b, d, "");
      SplitAvoiding("", d);
    }
    assert a + d + b + d == a + d + (b + d);
    SplitHead(a, d, b + d);
  }

  /**
   For a one-character delimiter that no part contains, splitting the join
   gives the parts back.
   */
  lemma {:induction false} SplitJoin(parts: seq<string>, d: string)
    requires |d| == 1 && |parts| >= 1
    requires forall i :: 0 <= i < |parts| ==> d[0] !in parts[i]
    ensures Split(Join(parts, d), d) == parts
    decreases |parts|
  {
    if |parts| == 1 {
      SplitAvoiding(parts[0], d);
    } else {
      SplitJoin(parts[1..], d);
      SplitHead(parts[0], d, Join(parts[1..], d));
      assert [parts[0]] + parts[1..] == parts;
    }
  }

  /** A character in neither the parts nor the delimiter is not in their join. */
  lemma {:induction false} JoinAvoids(parts: seq<string>, d: string, c: char)
    requires c !in d
    requires forall i :: 0 <= i < |parts| ==> c !in parts[i]
    ensures c !in Join(parts, d)
    decreases |parts|
  {
    if |parts| > 1 {
      JoinAvoids(parts[1..], d, c);
    }
  }

  /** `"a|"` splits into `["a", ""]`: a trailing empty part is kept. */
  lemma SplitKeepsTrailingEmpty()
    ensures Split("a|", "|") == ["a", ""]
  {
    assert "a|" == "a" + "|" + "";
    SplitHead("a", "|", "");
    SplitAvoiding("", "|");
  }

  /** `std::string`'s `operator<`: lexicographic by character, a proper prefix first. */
  predicate StrLess(a: string, b: string)
    decreases |a|
  {
    if |a| == 0 then |b| > 0
    else |b| > 0 && (a[0] < b[0] || (a[0] == b[0] && StrLess(a[1..], b[1..])))
  }

  lemma {:induction false} StrLessIrreflexive(a: string)
    ensures !StrLess(a, a)
    decreases |a|
  {
    if |a| > 0 {
      StrLessIrreflexive(a[1..]);
    }
  }

  lemma {:induction false} StrLessTransitive(a: string, b: string, c: string)
    requires StrLess(a, b) && StrLess(b, c)
    ensures StrLess(a, c)
    decreases |a|
  {
    if |a| > 0 && a[0] == b[0] && b[0] == c[0] {
      StrLessTransitive(a[1..], b[1..], c[1..]);
    }
  }

  /** Any two different strings are ordered one way or the other. */
  lemma {:induction false} StrLessTotal(a: string, b: string)
    requires a != b
    ensures StrLess(a, b) || StrLess(b, a)
    decreases |a|
  {
    if |a| > 0 && |b| > 0 && a[0] == b[0] {
      assert a == [a[0]] + a[1..] && b == [b[0]] + b[1..];
      StrLessTotal(a[1..], b[1..]);
    }
  }

  lemma StrLessAsymmetric(a: string, b: string)
    requires StrLess(a, b)
    ensures !StrLess(b, a)
  {
    if StrLess(b, a) {
      StrLessTransitive(a, b, a);
      StrLessIrreflexive(a);
    }
  }
}
